=== FILE: README.md ===
# MissileDodge gameplay rules in Dafny

MissileDodge is a small pygame arcade game. The player flies a plane that dodges missiles
and collects balloons while clouds scroll past, and the missiles come faster and in
nastier variants as the level rises. This project models the game's rules as pure step
functions over immutable records:

- the player's per-frame movement, screen clamping, cosmetic tilt and defend countdown,
  and the time-gated flash and defend abilities (`Players`);
- missile spawning by level and each variant's motion (`Enemies`);
- clouds and balloons (`Clouds`, `Balloons`);
- the flash and defend cool-down bars (`CoolDowns`);
- the game loop, in module `GameLoop`:
  - event handling (keys, window close and the four timers);
  - the per-frame update and collision pass;
  - the pause/alive/quit/reset state machine;
  - the end screen;
- the high-score merge (`HighScores`) and the name-entry box (`NameEntry`).

`Geometry` holds pygame's integer rectangles and the 800 x 600 screen. `Sprites` holds what
the game uses of pygame sprite groups: a group as an insertion-ordered sequence,
`Group.update()` with self-removal (`Survivors`), and `spritecollideany` (`FirstHit`).

Wall-clock time (`time.time()`) enters as a `real` parameter: the `now` of a key press
or of a frame. Random draws enter as fields of the timer events that consume them. The
held arrow keys are a `Keys` record. Image sizes come in as an `Art` record. Each rule
is then a deterministic function. Timestamps and cool-down lengths are exact `real`s.
Python's float rounding is not modelled, so the missile period after n difficulty ticks
is exactly 1000 * 0.8^n.

Behaviour follows the code as written, quirks included:
- at most one missile and one balloon are resolved per frame;
- a balloon is still collected on the frame the player dies;
- `BoostMissile` never sets `boosted` and never removes itself;
- holding the opposite vertical key at full tilt does nothing;
- flash and defend work while paused and while dead;
- timers keep firing while paused, and their events are dropped;
- a reset ends the frame's event handling, and it clears a quit requested earlier in
  the same frame;
- keys pressed after Return in the same batch still edit the name;
- `Balloon()` calls `random.randint(screen_height/4, screen_height)`, whose first argument is
  the float 150.0. Python 3.12 and later reject it with a `TypeError`, so there the first
  balloon timer event crashes the game; older versions accept it because 150.0 is integral;
- a window close during name entry shuts pygame down, and the next drawing call fails, so
  the program ends without storing a high score.

The code also behaves as follows where one might expect otherwise:
- flash aims along the key direction of the last frame, rightwards if no key was held. It
  does not use the last non-zero direction. A diagonal flash moves 140 pixels on each axis,
  about 198 in all, not the 200 of a straight flash.
- Paused time still counts towards the timers. The missile period has no floor, but the
  missile timer is re-armed with `int(period)`, which is 0 from the 31st difficulty tick on
  and switches the timer off: from level 32 no missile spawns. The
  level is not clamped in `add_enemy`. From level 10 on, no plain missile appears.
- The "enemies speed up to 30 once past three quarters of the screen" rule
  lives only in the base `Enemy.update`. Every variant overrides that method, so the rule
  never runs. Only `BoostMissile` speeds up, and it tests the left edge.
- A missing high-score file is not read as an empty table: `end_screen` simply opens it.

## Model

| member | source | states |
|---|---|---|
| Sprites.Survivors | main.py:223-226 | a group update leaves as many members as did not kill themselves, each the update of an old member, and every member that did not kill itself is there in its updated form; if none dies the size is kept, if all do the group is empty |
| Sprites.SurvivorsSingle | main.py:223-226 | a one-member group keeps the member's update, or is empty if the member killed itself |
| Sprites.SurvivorsAppend | main.py:223-226 | updating a group is updating its two halves and joining the results: survivors keep the group's order, and each member contributes exactly its own update |
| Sprites.RemoveAt | main.py:205-214 | `kill()` removes exactly the one member, keeping the others in their order |
| Sprites.FirstHit | main.py:202 | `spritecollideany` gives the first member whose rectangle collides with the player, and gives none exactly when no member collides |
| Players.NewPlayer | player.py:22-43 | a new player is centred at (-100, 300), level, still, not defending, with both ability timestamps at the epoch |
| Players.Speed | player.py:100-102 | the per-axis step is 7 exactly when a vertical and a horizontal key are both held, otherwise 10; 7 is 10 / sqrt 2 truncated (2 * 7^2 <= 10^2 < 2 * 8^2) |
| Players.Steer | player.py:91-119 | the defend counter drops by one while positive and stays at 0 otherwise; direction is (right-left, down-up); rot is up-down; the rectangle moves by step times direction |
| Players.Clamp | player.py:121-129 | clamping keeps the size; a rectangle that fits ends on screen, already-on-screen rectangles are unchanged, and each coordinate is clamped to its range; a too-wide one ends with its right edge on the screen's right edge |
| Players.ClampIdempotent | player.py:121-129 | clamping any rectangle a second time changes nothing |
| Players.Tilt | player.py:131-143 | with a vertical key held and tilt below 15 the angle moves by rot if leaning that way, else by 3 rot; at 15 it holds; with no vertical key its magnitude drops by 2 (floored at 0) keeping its sign; a tilt within [-15, 15] stays within it |
| Players.Update | player.py:91-143 | one frame of movement: a player that fits the screen is on it afterwards; direction, rot, countdown and tilt as in Steer and Tilt; timestamps unchanged |
| Players.TiltStaysBounded | player.py:131-143 | from any tilt within [-15, 15], in particular the new player's 0, any sequence of held keys keeps the tilt within [-15, 15] |
| Players.RunStaysOnScreen | player.py:121-129 | a player that fits the screen is on screen, at the same size, after any non-empty run of frames |
| Players.FullTiltIgnoresOppositeKey | player.py:132-137 | at tilt +15, holding only Down leaves the angle at +15 |
| Players.DefendCoolDownRemaining | player.py:62-66 | the remaining defend cool-down is never negative, is zero exactly when five seconds have passed, is 5 minus the elapsed time otherwise, and is at most 5 |
| Players.Defend | player.py:56-60 | defend is refused, changing nothing, exactly when less than five seconds have passed; otherwise it stamps the time and sets the counter to 5, changing nothing else |
| Players.CountDown | player.py:92-93 | after n frames a non-negative defend counter d is d - n while n < d, else 0 |
| Players.DefendLastsFiveFrames | player.py:56-93 | after a successful defend the counter is 5 - n after n < 5 updates and 0 from the fifth update on |
| Players.Flash | player.py:68-80 | flash is refused, changing nothing, exactly when less than five seconds have passed; otherwise it stamps the time, turns a still direction into rightwards and moves by direction times 20 steps (7 if diagonal, else 10), changing nothing else |
| Players.FlashDistance | player.py:72-78 | after any frame a flash moves the player 200 pixels along one axis, or 140 along both |
| Players.FlashCoolsDown | player.py:69-71 | a second flash within five seconds of a successful one is refused and changes nothing; one at least five seconds later succeeds |
| Players.FlashLeavesScreen | player.py:77-79 | the flash is not clamped: a player at the right edge flying right ends 200 pixels past it |
| Enemies.Place | enemy.py:31-33 | a missile is placed with its top-left corner at (screen width, drawn height) |
| Enemies.AddEnemy | enemy.py:7-14 | sinusoidal exactly when chance < level/20, boosted exactly when level/20 <= chance < 2 level/20, plain otherwise; each with its constructor speed and placement; in-range draws give valid speeds |
| Enemies.HighLevelsNeverLinear | enemy.py:7-14 | for a draw in [0, 1), level 10 or more never yields a plain missile and level 20 or more always yields a sinusoidal one |
| Enemies.LevelMonotone | enemy.py:9-11 | raising the level never turns a sinusoidal draw into another variant, nor a special draw into a plain missile |
| Enemies.Update | enemy.py:51-94 | plain and sinusoidal missiles move left by their speed (sinusoidal ones also by the sway) and are removed exactly when the right edge is negative; a boost missile is never removed, keeps its flag, switches to speed 30 once left of 600, and moves left by its speed; validity of speeds is preserved |
| Enemies.BoostFlight | enemy.py:90-94 | a boost missile is still a boost missile with the same flag after any number of frames |
| Enemies.BoostIsOneWay | enemy.py:90-94 | once past the boost line or fast, a boost missile moves at 30 on every later frame and never moves right |
| Enemies.SlowBeforeBoostLine | enemy.py:90-94 | before the boost line a boost missile keeps speed 5 and moves 5 left |
| Enemies.LinearFlightExact | enemy.py:51-54 | a plain missile is alive after n frames exactly when right - n speed >= 0, and then it sits n speed further left |
| Clouds.NewCloud | cloud.py:21-33 | a new cloud is k tenths of 350 x 200, at (screen width, y), speed 4; for k in 2..10 its size lies between 70 x 40 and 350 x 200, and draws in range put its top on the screen's rows |
| Clouds.ToBack | main.py:170-172 | a back cloud keeps its rectangle and takes int(0.5 speed) as its speed |
| Clouds.BackCloudSpeed | main.py:170-172 | a spawned back cloud moves 2 pixels per frame |
| Clouds.Update | cloud.py:35-38 | a cloud moves left by its speed with y and size unchanged, and is removed exactly when its right edge becomes negative |
| Clouds.FlightExact | cloud.py:35-38 | a cloud with non-negative speed is alive after n frames exactly when right - n speed >= 0, and then it has moved n speed left with row, size and speed unchanged |
| Balloons.NewBalloon | balloon.py:10-17 | a balloon spawns with its top-left corner at (screen width, drawn height) at the image's size; its top lies in [150, 600] exactly when the height is a draw of randint(screen height / 4, screen height) |
| Balloons.Update | balloon.py:19-22 | a balloon moves by (-4, -3) keeping its size, and is removed exactly when its bottom becomes negative |
| Balloons.FlightExact | balloon.py:19-22 | a balloon is alive after n frames exactly when bottom - 3n >= 0, and then it has moved by (-4n, -3n) |
| Balloons.EventuallyRemoved | balloon.py:19-22 | every balloon on or below the top edge is removed within bottom/3 + 1 frames |
| CoolDowns.InitialBarsReady | cooldown.py:6-12 | a new bar has trigger time 0 and length 100, and from five seconds after the epoch on it shows as empty (ready) |
| CoolDowns.Update | cooldown.py:14-21 | the bar length is never negative; within five seconds of the trigger it is 100 (1 - elapsed/5) and at most 100; from five seconds on it is 0; before the trigger time it exceeds 100 |
| CoolDowns.Trigger | cooldown.py:23-24 | triggering stamps the time, so an update at that moment shows the full length 100 |
| CoolDowns.ShrinksOverTime | cooldown.py:14-18 | for a fixed trigger time the bar length never grows as time passes |
| HighScores.Insert | main.py:296 | insertion adds exactly the one entry to the list |
| HighScores.InsertSorted | main.py:296 | inserting into a list sorted by score, highest first, keeps it sorted |
| HighScores.InsertStable | main.py:296 | inserting into a sorted list places the new entry after every entry with the same score |
| HighScores.SortDesc | main.py:296 | sorting is a permutation that orders scores highest first and is stable: the entries with any one score keep their input order |
| HighScores.Merge | main.py:295-296 | the merged table has min(n + 1, 5) entries, sorted highest first, each from the old table or the new entry, and no dropped entry outscores a kept one |
| HighScores.SortSortedIsIdentity | main.py:296 | the stable sort leaves an already sorted table as it is |
| HighScores.FullTable | main.py:295-296 | for a full sorted table, a new score that ties or trails the fifth entry is dropped and the table is unchanged; a strictly higher one gets in |
| HighScores.RoomLeft | main.py:295-296 | a table with fewer than five entries always takes the new entry |
| NameEntry.Handle | main.py:325-343 | Return ends entry; Escape ends it and clears the quit flag; window close shuts pygame down and sets quit; Backspace drops the last character (empty stays empty); any other key appends its text |
| NameEntry.BackspaceUndoesTyping | main.py:338-343 | typing one character then Backspace restores the editor |
| NameEntry.TypingAppends | main.py:341-343 | typing a string character by character appends it to the text |
| NameEntry.TypedNameRoundTrip | main.py:323-345 | typing a name then Return in one batch ends the session with exactly that name and the quit flag unchanged |
| NameEntry.KeysAfterReturnStillCount | main.py:323-343 | a key after Return in the same batch is still appended |
| NameEntry.Named | main.py:379-382 | the box reports no name exactly when the text is empty or a single newline |
| NameEntry.Batch | main.py:324-343 | after a batch the box is open exactly when it was and the batch held neither Return nor Escape; pygame is down exactly when it was or the batch held a close; the quit flag changes only through a close or Escape, and whichever of the two occurs alone decides it |
| NameEntry.BatchSplit | main.py:324-343 | handling a batch is handling its first part and then the rest |
| NameEntry.Session | main.py:323-376 | a session already ended, or shut down, changes nothing; a session that never ends has handled every batch in order, as one batch |
| NameEntry.SessionPolls | main.py:323-376 | a session polls batches while the box is open and pygame up, and stops after the first batch that ends the box or closes the window; its result is the polled batches handled in order as one batch |
| NameEntry.TypedNameIsNamed | main.py:323-382 | typing a name and pressing Return ends the session with that text, with pygame still up, and the box reports a name exactly when it is neither empty nor a newline |
| GameLoop.Reset | main.py:79-113 | a (re)started game is not quitting, unpaused, alive, score 0, level 1, period 1000 ms, no missiles or balloons, a fresh player and full bars; the new player is level, still, not defending, and both timestamps are at the epoch, so flash and defend are ready |
| GameLoop.HandleKey | main.py:120-152 | P and Return toggle pause only while alive; R, or Return while dead, resets and ends the frame's event handling; Escape sets quit; Space/F flash and D defend, restarting the matching bar only when they activate |
| GameLoop.CheckEvent | main.py:115-189 | while paused timer events change nothing; otherwise they append one missile, cloud (back at half speed when the coin is below 0.5) or balloon, or raise the level by 1 and scale the period by 0.8; window close sets quit; the invariant is kept |
| GameLoop.CheckEvents | main.py:115-189 | handling any batch of events keeps the invariant: dead only while paused, level >= 1, score >= 0, period > 0 |
| GameLoop.ResetEndsEvents | main.py:139-152 | the first event that resets (R, or Return while dead), whatever came before it, ends the frame's event handling: the result is a fresh game whatever events follow |
| GameLoop.PausedTimersInert | main.py:159-189 | while paused, any sequence of timer events leaves the game unchanged |
| GameLoop.DifficultyTicks | main.py:185-189 | n difficulty events while running raise the level by n and scale the period by 0.8^n, changing nothing else |
| GameLoop.LevelAfterTicks | main.py:185-189 | from a fresh game, n difficulty ticks give level 1 + n and period 1000 * 0.8^n |
| GameLoop.TimerMillis | main.py:188 | `int(period)` truncates towards zero to whole milliseconds |
| GameLoop.MissileTimerStops | main.py:185-189 | the 30th tick re-arms the missile timer with 1 ms, the 31st and every later one with 0, which switches it off |
| GameLoop.Collisions | main.py:199-214 | the first colliding missile is removed; while defending it scores 5, otherwise the game becomes dead and paused; the first colliding balloon is removed and scores 10 + 2 (level - 1), fatal hit or not; score never drops; nothing else changes |
| GameLoop.UpdateSprites | main.py:216-230 | the player takes one update with the held keys; each group (missiles with their sway, back and front clouds, balloons) becomes its members' updates without those that killed themselves, so no group grows; both bars are redrawn for `now` and are non-negative; nothing else changes |
| GameLoop.Advance | main.py:191-194 | `run_frame` without drawing and without the end screen: a running frame keeps a fitting player on screen, never grows a group, keeps level, period and quit, never lowers the score and keeps the invariant; the player dies exactly when, after the update, it touches a missile with the defend counter at 0 |
| GameLoop.DefendCovers | main.py:191-214 | with the defend counter above the number of frames, no frame can kill the player, and the counter drops by one per frame: a defend (counter 5) covers the next four frames |
| GameLoop.FifthFrameExposed | main.py:191-214 | on the fifth frame after a defend the counter is 0 when collisions are checked, so touching a missile then kills the player |
| GameLoop.Frame | main.py:66-75 | the loop pass up to the end screen: a frame that ends paused after its events runs no update and opens no end screen; a running live game advances one frame; level, period and quit are those the events left |
| GameLoop.FrameInv | main.py:66-75 | every pass of the main loop keeps the invariant |
| GameLoop.EndScreenOnDeath | main.py:66-75 | the end screen is shown exactly on the frame a live, running player dies |
| GameLoop.DeadEventsInert | main.py:115-189 | events handled while dead, without R or Return, keep the game dead and paused with score, level, period and all sprite groups unchanged |
| GameLoop.DeadStaysDead | main.py:66-75 | after death nothing advances until a reset: the frame keeps the game dead and paused, changes no score, level, period or group, and shows no end screen |
| GameLoop.EscapeThenResetKeepsPlaying | main.py:132-139 | Escape alone sets quit, but Escape followed by R in the same frame leaves quit cleared |
| GameLoop.EndScreen | main.py:281-306 | a window close during name entry ends the program with the table unchanged; otherwise the quit flag comes from the name box, and the table changes only when a name was entered, then to the top-five merge of the old table and (name, score) |
| GameLoop.NameEnteredIsStored | main.py:281-306 | typing a name and pressing Return at the end of a game with fewer than five high scores stores (name, final score) and leaves the game state as it was |
| GameLoop.Pass | main.py:66-75 | a full loop pass: the frame, plus the end screen in the same pass on a death (`run_frame` calls it); the end screen changes only the quit flag, and a pass without a death keeps the table |
| GameLoop.DeathPassQuit | main.py:191-197 | on the death pass the loop ends exactly when the window was closed or the name box left quit set; the table changes only on a death pass with the window open and a name entered |
| GameLoop.DeathThenNameIsStored | main.py:191-197 | a player who dies and then types a name and presses Return gets (name, final score) into a table with room, and the loop keeps the frame's quit flag |

## Left out

- Rendering and assets are not modelled. This covers `draw_screen`, every `draw`, `get_surf`
  and `rotate` method, `strobe_color`, `generate_cloud`, fonts, surfaces, alpha and image
  loading. They are pygame calls with no game rule in them. Image sizes are the `Art`
  parameter and the player rectangle.
- `SineMissile`'s vertical motion and its `angle` are not modelled. Both are floating-point
  `sin`/`arctan` of the wall clock. The vertical step each frame is the caller's `sway`.
  The missile's random phase `offset` is therefore not kept.
- The base `Enemy.update` is not modelled. Every subclass overrides it, and it names an
  undefined `SCREEN_WIDTH`.
- events.py is not part of this model. It is an unused duplicate of `check_events` and is
  never imported.
- `starting_animation` is left out, and so is the player's slide-in. `Reset` takes their
  outcome as the `Opening` parameter: the player's rectangle and the opening back and
  front clouds.
- `scale_rect` is left out; nothing calls it.
- The pickle load and store in `end_screen` are not modelled. `EndScreen` maps the loaded
  table to the table that would be stored.
- pygame timers, the event queue and `CLOCK.tick` are not modelled. Events are an input
  sequence. The `int(missile_period)` re-arming of the missile timer is modelled only as
  `TimerMillis` and `MissileTimerStops`; the model does not stop producing missile
  events once that value is 0, as the event sequence is an input.
- The random distributions are not modelled. Properties are stated per draw. The
  predicates `Enemies.DrawInRange`, `Clouds.DrawInRange` and `Balloons.DrawInRange`
  describe the ranges the missile, cloud and balloon `randint`/`random` calls produce.
  The cloud's back-or-front coin has no range predicate: only its comparison with 0.5
  matters.
- The failing drawing call after a window close in `input_name` is modelled as the end of
  the program (`EndScreen` sets quit and keeps the table); the `pygame.error` itself is not.
- `flash` reads the clock twice, once for the test and once for the stamp. The model
  uses one `now` for both. Likewise `check_events` tests the defend cool-down and `defend`
  tests it again; both tests use the same `now`.
- Balloons.NewBalloon: takes the drawn height as an integer parameter. A draw in
  `Balloons.DrawInRange` (150 to 600) is what older Python versions produce for
  `randint(150.0, 600)`. On Python 3.12 and later that call raises `TypeError` on the
  first balloon; the model has no such failure.
- Enemies.BoostIsOneWay: rectangle coordinates are unbounded integers, while pygame keeps
  them as 32-bit C ints and `move_ip` wraps without a check. A boost missile never removes
  itself, so after about 7 * 10^7 frames (some 27 days at 30 frames per second) its x
  would wrap to a large positive value. The lemma's "never moves right" holds for
  unbounded coordinates only. The other flight lemmas rest on the same assumption.
- Players.Defend: the source's `defend` returns `None` on success, not `True`. The model
  reports activation as `true`. The only caller ignores the result.
- The cool-down bar's drawn width (`rect.width = length`) truncates to whole pixels. It is
  a drawing detail and is not modelled.
- Collision uses the pygame 2 rule that an empty rectangle never collides.
- `Enemies.Update` takes the sway as a function of the missile's state, so two
  sinusoidal missiles with identical rectangles sway alike.

=== FILE: balloons.dfy ===
/** Balloons: drift left and rise at fixed rates; removed once fully above
    the top edge. */
module Balloons {
  import opened Geometry
  import opened Sprites

  const DriftSpeed: int := 4
  const RiseSpeed: int := 3

  datatype Balloon = Balloon(rect: Rect)

  /** The heights randint(screen height / 4, screen height) can draw. */
  predicate DrawInRange(height: int) {
    ScreenHeight / 4 <= height <= ScreenHeight
  }

  /** `Balloon()` of the balloon image's size `w` x `h`, for the draw `height`.
      A draw in range puts the balloon's top between a quarter of the screen
      height and the bottom edge. */
  function NewBalloon(height: int, w: nat, h: nat): (b: Balloon)
    ensures b.rect.Left() == ScreenWidth && b.rect.Top() == height
    ensures b.rect.w == w && b.rect.h == h
    ensures DrawInRange(height) <==> 150 <= b.rect.Top() <= ScreenHeight
  {
    Balloon(Rect(ScreenWidth, height, w, h))
  }

  /** `Balloon.update`; `None` once the balloon killed itself. */
  function Update(b: Balloon): (r: Option<Balloon>)
    ensures r.None? <==> b.rect.Bottom() - RiseSpeed < 0
    ensures r.Some? ==> r.value.rect == Rect(b.rect.x - DriftSpeed, b.rect.y - RiseSpeed, b.rect.w, b.rect.h)
  {
    var moved := b.rect.Move(-4, -3);
    if moved.Bottom() < 0 then None else Some(Balloon(moved))
  }

  /** The balloon after `n` frames, `None` once it has removed itself. */
  function Flight(b: Balloon, n: nat): Option<Balloon>
    decreases n
  {
    if n == 0 then Some(b)
    else match Update(b)
      case None => None
      case Some(b') => Flight(b', n - 1)
  }

  /** A balloon on or below the top edge lives exactly while its bottom,
      raised 3 pixels per frame, stays at or below y = 0, moving 4 left and 3
      up each frame. */
  lemma {:induction false} FlightExact(b: Balloon, n: nat)
    requires b.rect.Bottom() >= 0
    ensures Flight(b, n).Some? <==> b.rect.Bottom() - 3 * n >= 0
    ensures Flight(b, n).Some? ==> Flight(b, n).value.rect == b.rect.Move(-4 * n, -3 * n)
    decreases n
  {
    if n > 0 {
      var moved := b.rect.Move(-4, -3);
      if moved.Bottom() >= 0 {
        FlightExact(Balloon(moved), n - 1);
      } else {
        assert Flight(b, n) == None;
      }
    }
  }

  /** Every balloon is eventually removed: `Bottom / 3 + 1` frames suffice. */
  lemma EventuallyRemoved(b: Balloon)
    requires b.rect.Bottom() >= 0
    ensures Flight(b, b.rect.Bottom() / 3 + 1).None?
  {
    var n := b.rect.Bottom() / 3 + 1;
    assert b.rect.Bottom() - 3 * n < 0;
    FlightExact(b, n);
  }
}

=== FILE: clouds.dfy ===
/** Clouds: scrolled leftwards at a fixed speed, removed once fully off the
    left edge. Back clouds move at half speed. */
module Clouds {
  import opened Geometry
  import opened Sprites

  const CloudSpeed: int := 4
  /** Size of a cloud at scale 10/10. */
  const FullWidth: int := 350
  const FullHeight: int := 200

  datatype Cloud = Cloud(rect: Rect, speed: int)

  /** The draws randint(2, 10) and randint(0, screen height) can make. */
  predicate DrawInRange(k: int, y: int) {
    2 <= k <= 10 && 0 <= y <= ScreenHeight
  }

  /** `Cloud()` for the draws `k` (the size is k tenths of 350 x 200) and `y`
      (the spawn row). Draws in range give a cloud between 70 x 40 and
      350 x 200 whose top lies on the screen's rows. */
  function NewCloud(k: nat, y: int): (c: Cloud)
    ensures c.rect.Left() == ScreenWidth && c.rect.Top() == y && c.speed == CloudSpeed
    ensures 10 * c.rect.w == FullWidth * k && 10 * c.rect.h == FullHeight * k
    ensures 2 <= k <= 10 ==> 70 <= c.rect.w <= FullWidth && 40 <= c.rect.h <= FullHeight
    ensures DrawInRange(k, y) ==> 0 <= c.rect.Top() <= ScreenHeight
  {
    // 350 * k / 10 and 200 * k / 10 are exact.
    Cloud(Rect(ScreenWidth, y, 35 * k, 20 * k), 4)
  }

  /** A back cloud: speed `int(0.5 * speed)`. */
  function ToBack(c: Cloud): (b: Cloud)
    requires c.speed >= 0
    ensures b.rect == c.rect && 2 * b.speed <= c.speed < 2 * b.speed + 2
  {
    c.(speed := c.speed / 2)
  }

  /** A spawned back cloud moves at 2 pixels per frame. */
  lemma BackCloudSpeed(k: nat, y: int)
    ensures ToBack(NewCloud(k, y)).speed == 2
  {
  }

  /** `Cloud.update`; `None` once the cloud killed itself. */
  function Update(c: Cloud): (r: Option<Cloud>)
    ensures r.None? <==> c.rect.Right() - c.speed < 0
    ensures r.Some? ==> r.value.speed == c.speed && r.value.rect.x == c.rect.x - c.speed
    ensures r.Some? ==> r.value.rect.(x := c.rect.x) == c.rect
  {
    var moved := c.rect.Move(-c.speed, 0);
    if moved.Right() < 0 then None else Some(c.(rect := moved))
  }

  /** The cloud after `n` frames, `None` once it has removed itself. */
  function Flight(c: Cloud, n: nat): Option<Cloud>
    decreases n
  {
    if n == 0 then Some(c)
    else match Update(c)
      case None => None
      case Some(c') => Flight(c', n - 1)
  }

  /** A cloud whose right edge is on or right of x = 0 lives exactly while
      its right edge, moved `speed` pixels left per frame, stays there, and
      keeps its row, size and speed. */
  lemma {:induction false} FlightExact(c: Cloud, n: nat)
    requires c.speed >= 0 && c.rect.Right() >= 0
    ensures Flight(c, n).Some? <==> c.rect.Right() - n * c.speed >= 0
    ensures Flight(c, n).Some? ==> Flight(c, n).value == c.(rect := c.rect.Move(-(n * c.speed), 0))
    decreases n
  {
    if n > 0 {
      var m: nat := n - 1;
      var moved := c.rect.Move(-c.speed, 0);
      assert n * c.speed == m * c.speed + c.speed;
      if moved.Right() >= 0 {
        FlightExact(c.(rect := moved), m);
      } else {
        assert Flight(c, n) == None;
        assert m * c.speed >= 0;
      }
    }
  }
}

=== FILE: cooldowns.dfy ===
/** The flash and defend cool-down bars (`FlashCoolDown` and `DefendCoolDown`
    are the same class up to field names, so they share this one model): the
    bar length falls linearly from 100 to 0 over the five seconds after the
    last trigger. Time is real seconds. */
module CoolDowns {

  const MaxLength: real := 100.0
  const Period: real := 5.0

  datatype CoolDown = CoolDown(prev: real, length: real)

  /** The bar as constructed: never triggered (epoch 0), full length. */
  const Initial: CoolDown := CoolDown(0.0, 100.0)

  /** `update()` at wall-clock second `now`. */
  function Update(c: CoolDown, now: real): (r: CoolDown)
    ensures r.prev == c.prev
    ensures r.length >= 0.0
    ensures 0.0 <= now - c.prev <= Period ==>
      r.length == MaxLength * (1.0 - (now - c.prev) / Period) && r.length <= MaxLength
    ensures now - c.prev >= Period ==> r.length == 0.0
    ensures now < c.prev ==> r.length > MaxLength
  {
    var delay := now - c.prev;
    var length := 100.0 * (1.0 - delay / 5.0);
    if length < 0.0 then c.(length := 0.0) else c.(length := length)
  }

  /** `flash()` / `defend()`: restart the bar at `now`. */
  function Trigger(c: CoolDown, now: real): (r: CoolDown)
    ensures r.prev == now && Update(r, now).length == MaxLength
  {
    c.(prev := now)
  }

  /** A bar as constructed, updated at any wall-clock second at least five
      seconds after the epoch (every real clock reading), is empty: both
      abilities show as ready at the start of a game. */
  lemma InitialBarsReady(now: real)
    requires now >= Period
    ensures Initial.prev == 0.0 && Initial.length == MaxLength
    ensures Update(Initial, now).length == 0.0
  {
  }

  /** For a fixed trigger time the bar never grows as time passes. */
  lemma ShrinksOverTime(c: CoolDown, t: real, t': real)
    requires t <= t'
    ensures Update(c, t').length <= Update(c, t).length
  {
  }
}

=== FILE: enemies.dfy ===
/** Missiles: the level-dependent choice of variant from one random draw, the
    placement just past the right edge, and each variant's per-frame motion. */
module Enemies {
  import opened Geometry
  import opened Sprites

  /** Speeds in pixels per frame. */
  const MinMissileSpeed: int := 10
  const MaxMissileSpeed: int := 25
  const SineSpeed: int := 10
  const BoostStartSpeed: int := 5
  const BoostSpeed: int := 30

  /** The three subclasses of `Enemy`. `Boosted` carries the `boosted` flag,
      which nothing ever sets. `SineMissile`'s phase offset only feeds the
      vertical motion, which is supplied from outside (see `Update`). */
  datatype Kind = Linear | Sinusoidal | Boosted(boosted: bool)

  datatype Enemy = Enemy(rect: Rect, speed: int, kind: Kind)

  /** The random numbers one spawn consumes: `chance` picks the variant,
      `height` is the spawn row (randint(0, screen height)) and `speed` the
      randint(10, 25) a plain `Missile` draws. */
  datatype EnemyDraw = EnemyDraw(chance: real, height: int, speed: int)

  predicate DrawInRange(d: EnemyDraw) {
    0.0 <= d.chance < 1.0 && 0 <= d.height <= ScreenHeight
    && MinMissileSpeed <= d.speed <= MaxMissileSpeed
  }

  /** The share of draws below which a Sinusoidal missile is chosen. */
  function SineShare(level: int): real { level as real / 20.0 }

  /** `Enemy.place`: top-left corner just past the right edge, at `height`. */
  function Place(w: nat, h: nat, height: int): (r: Rect)
    ensures r.Left() == ScreenWidth && r.Top() == height && r.w == w && r.h == h
  {
    Rect(ScreenWidth, height, w, h)
  }

  /** `add_enemy(level, screen)`, with the missile image of size `w` x `h`. */
  function AddEnemy(level: int, d: EnemyDraw, w: nat, h: nat): (e: Enemy)
    ensures e.kind == Sinusoidal <==> d.chance < SineShare(level)
    ensures e.kind.Boosted? <==> SineShare(level) <= d.chance < 2.0 * SineShare(level)
    ensures e.kind == Linear <==> d.chance >= SineShare(level) && d.chance >= 2.0 * SineShare(level)
    ensures e.kind.Boosted? ==> e.kind == Boosted(false) && e.speed == BoostStartSpeed
    ensures e.kind == Sinusoidal ==> e.speed == SineSpeed
    ensures e.kind == Linear ==> e.speed == d.speed
    ensures e.rect == Place(w, h, d.height)
    ensures DrawInRange(d) ==> Valid(e)
  {
    var chance := d.chance;
    var place := Place(w, h, d.height);
    if chance < level as real / 20.0 then Enemy(place, 10, Sinusoidal)
    else if chance < 2.0 * level as real / 20.0 then Enemy(place, 5, Boosted(false))
    else Enemy(place, d.speed, Linear)
  }

  /** From level 10 on no plain missile is drawn, and from level 20 on every
      missile is sinusoidal. */
  lemma HighLevelsNeverLinear(level: int, d: EnemyDraw, w: nat, h: nat)
    requires 0.0 <= d.chance < 1.0
    ensures level >= 10 ==> AddEnemy(level, d, w, h).kind != Linear
    ensures level >= 20 ==> AddEnemy(level, d, w, h).kind == Sinusoidal
  {
  }

  /** Raising the level never turns a draw that gave a special missile into a
      plain one, nor a sinusoidal one into anything else. */
  lemma LevelMonotone(level: int, level': int, d: EnemyDraw, w: nat, h: nat)
    requires 0 <= level <= level'
    ensures AddEnemy(level, d, w, h).kind == Sinusoidal ==> AddEnemy(level', d, w, h).kind == Sinusoidal
    ensures AddEnemy(level, d, w, h).kind != Linear ==> AddEnemy(level', d, w, h).kind != Linear
  {
  }

  /** The speeds each variant can have. */
  predicate Valid(e: Enemy) {
    match e.kind
    case Linear => MinMissileSpeed <= e.speed <= MaxMissileSpeed
    case Sinusoidal => e.speed == SineSpeed
    case Boosted(b) => !b && (e.speed == BoostStartSpeed || e.speed == BoostSpeed)
  }

  /** Whether `BoostMissile.update` switches to the high speed: the left edge
      is left of three quarters of the screen width (compared exactly,
      `x < 800 * 3 / 4`). */
  predicate PastBoostLine(r: Rect) {
    4 * r.Left() < 3 * ScreenWidth
  }

  /** One frame of `update` for the variant; `None` when the sprite kills
      itself. `sway` is the vertical displacement a sinusoidal missile gets this
      frame (a floating-point sine of the wall clock, computed outside). */
  function Update(e: Enemy, sway: int): (r: Option<Enemy>)
    ensures e.kind == Linear ==>
      var moved := e.rect.Move(-e.speed, 0);
      (r.None? <==> moved.Right() < 0) && (r.Some? ==> r.value == e.(rect := moved))
    ensures e.kind == Sinusoidal ==>
      var moved := e.rect.Move(-e.speed, sway);
      (r.None? <==> moved.Right() < 0) && (r.Some? ==> r.value == e.(rect := moved))
    ensures e.kind.Boosted? ==> r.Some? && r.value.kind == e.kind
    ensures e.kind.Boosted? && !e.kind.boosted ==>
      r.value.speed == (if PastBoostLine(e.rect) then BoostSpeed else e.speed)
    ensures e.kind.Boosted? ==> r.value.rect == e.rect.Move(-r.value.speed, 0)
    ensures r.Some? ==> r.value.rect.w == e.rect.w && r.value.rect.h == e.rect.h
    ensures Valid(e) && r.Some? ==> Valid(r.value)
  {
    match e.kind
    case Linear =>
      var moved := e.rect.Move(-e.speed, 0);
      if moved.Right() < 0 then None else Some(e.(rect := moved))
    case Sinusoidal =>
      var moved := e.rect.Move(-e.speed, 0).Move(0, sway);
      if moved.Right() < 0 then None else Some(e.(rect := moved))
    case Boosted(boosted) =>
      var speed := if !boosted && PastBoostLine(e.rect) then 30 else e.speed;
      Some(e.(speed := speed, rect := e.rect.Move(-speed, 0)))
  }

  /** A boost missile's position after `n` frames (it never removes itself). */
  function BoostFlight(e: Enemy, n: nat): (f: Enemy)
    requires e.kind.Boosted?
    ensures f.kind == e.kind
    decreases n
  {
    if n == 0 then e else BoostFlight(Update(e, 0).value, n - 1)
  }

  /** The boost is one-way: once the missile is past the boost line, or already
      fast, every later frame moves it at the high speed, and it stays in the
      group. */
  lemma {:induction false} BoostIsOneWay(e: Enemy, n: nat)
    requires e == Enemy(e.rect, e.speed, Boosted(false))
    requires PastBoostLine(e.rect) || e.speed == BoostSpeed
    requires e.speed == BoostStartSpeed || e.speed == BoostSpeed
    ensures n > 0 ==> BoostFlight(e, n).speed == BoostSpeed
    ensures BoostFlight(e, n).rect.Left() <= e.rect.Left()
    ensures PastBoostLine(BoostFlight(e, n).rect) || BoostFlight(e, n).speed == BoostSpeed
    decreases n
  {
    if n > 0 {
      var e' := Update(e, 0).value;
      assert PastBoostLine(e.rect) ==> e'.speed == BoostSpeed;
      assert e'.speed == BoostSpeed;
      BoostIsOneWay(e', n - 1);
    }
  }

  /** Until the boost line is crossed the missile creeps at the start speed. */
  lemma SlowBeforeBoostLine(e: Enemy)
    requires e.kind == Boosted(false) && e.speed == BoostStartSpeed && !PastBoostLine(e.rect)
    ensures Update(e, 0).value.speed == BoostStartSpeed
    ensures Update(e, 0).value.rect.Left() == e.rect.Left() - BoostStartSpeed
  {
  }

  /** A plain missile's state after `n` frames, `None` once it has removed
      itself. */
  function LinearFlight(e: Enemy, n: nat): Option<Enemy>
    requires e.kind == Linear
    decreases n
  {
    if n == 0 then Some(e)
    else match Update(e, 0)
      case None => None
      case Some(e') => LinearFlight(e', n - 1)
  }

  /** A plain missile is still in flight for exactly the frames its right edge
      stays on or right of x = 0: after `n` frames it is alive iff
      `right - n * speed >= 0`, at that position. */
  lemma {:induction false} LinearFlightExact(e: Enemy, n: nat)
    requires e.kind == Linear && e.speed > 0 && e.rect.Right() >= 0
    ensures LinearFlight(e, n).Some? <==> e.rect.Right() - n * e.speed >= 0
    ensures LinearFlight(e, n).Some? ==>
      LinearFlight(e, n).value == e.(rect := e.rect.Move(-(n * e.speed), 0))
    decreases n
  {
    if n > 0 {
      var m: nat := n - 1;
      var moved := e.rect.Move(-e.speed, 0);
      assert n * e.speed == m * e.speed + e.speed;
      if moved.Right() >= 0 {
        LinearFlightExact(e.(rect := moved), m);
      } else {
        assert LinearFlight(e, n) == None;
        assert m * e.speed >= 0;
      }
    }
  }
}

=== FILE: gameloop.dfy ===
/** The game loop: one state record owning every sprite group and flag, the
    per-frame event handling (keys, window close and the four timers), the
    per-frame update and collision pass, and the end-of-game high-score
    step. Time, random draws, held keys and the sine sway of the missiles are
    inputs. */
module GameLoop {
  import opened Geometry
  import opened Sprites
  import Players
  import Enemies
  import Clouds
  import Balloons
  import CoolDowns
  import HighScores
  import NameEntry

  /** Milliseconds between missiles at level 1, and its decay per level. */
  const StartPeriod: real := 1000.0
  const Decay: real := 0.8
  /** Score for destroying a missile while defending. */
  const DefendedHitScore: int := 5

  /** Score for catching a balloon at `level`. */
  function BalloonScore(level: int): int { 10 + (level - 1) * 2 }

  /** The keys `check_events` reacts to; anything else is `OtherKey`. */
  datatype Key = Space | KeyF | KeyD | Escape | KeyR | KeyP | Return | OtherKey

  /** One entry of the event queue. A key press carries the wall-clock second
      at which it is handled; each timer event carries the random draws its
      spawn consumes (`coin` decides back or front cloud). */
  datatype Event =
    | KeyDown(key: Key, now: real)
    | WindowClose
    | SpawnEnemy(draw: Enemies.EnemyDraw)
    | SpawnCloud(k: nat, y: int, coin: real)
    | SpawnBalloon(height: int)
    | Harder
    | OtherEvent

  /** The sizes of the missile and balloon images. */
  datatype Art = Art(missileW: nat, missileH: nat, balloonW: nat, balloonH: nat)

  /** What the opening animation leaves behind: the player's rectangle after
      sliding in, and the opening back and front clouds. */
  datatype Opening = Opening(player: Rect, back: seq<Clouds.Cloud>, front: seq<Clouds.Cloud>)

  datatype Game = Game(
    quit: bool,
    pause: bool,
    alive: bool,
    player: Players.Player,
    balloons: seq<Balloons.Balloon>,
    back: seq<Clouds.Cloud>,
    front: seq<Clouds.Cloud>,
    enemies: seq<Enemies.Enemy>,
    score: int,
    level: int,
    period: real,   // milliseconds between missiles
    flashBar: CoolDowns.CoolDown,
    defendBar: CoolDowns.CoolDown)

  /** `GameLoop.__init__`, also run by every reset: a first-game state. */
  function Reset(o: Opening): (g: Game)
    ensures !g.quit && !g.pause && g.alive
    ensures g.score == 0 && g.level == 1 && g.period == StartPeriod
    ensures g.enemies == [] && g.balloons == [] && g.back == o.back && g.front == o.front
    ensures g.player.rect == o.player && g.player.defending == 0 && g.player.angle == 0
    ensures g.player.rot == 0 && g.player.direction == Players.Vec(0, 0)
    ensures g.player.flashTime == 0.0 && g.player.defendTime == 0.0
    ensures g.flashBar == CoolDowns.Initial && g.defendBar == CoolDowns.Initial
  {
    var p := Players.NewPlayer(o.player.w, o.player.h).(rect := o.player);
    Game(false, false, true, p, [], o.back, o.front, [], 0, 1, 1000.0,
         CoolDowns.Initial, CoolDowns.Initial)
  }

  /** The safety facts every reachable state keeps: the player is only dead
      while paused, the level is at least 1, the score is not negative and
      the missile period is positive. */
  predicate Inv(g: Game) {
    (!g.alive ==> g.pause) && g.level >= 1 && g.score >= 0 && g.period > 0.0
  }

  /** A key press. The second component says whether the press reset the
      game, which ends the handling of this frame's events. Flash and defend
      work in every state, paused or dead included. */
  function HandleKey(s: Game, key: Key, now: real, o: Opening): (r: (Game, bool))
    ensures r.1 <==> key == KeyR || (key == Return && !s.alive)
    ensures r.1 ==> r.0 == Reset(o)
    ensures key == KeyP ==> r.0 == s.(pause := if s.alive then !s.pause else s.pause)
    ensures key == Return && s.alive ==> r.0 == s.(pause := !s.pause)
    ensures key == Escape ==> r.0 == s.(quit := true)
    ensures key == Space || key == KeyF ==>
      var f := Players.Flash(s.player, now);
      r.0 == s.(player := f.1, flashBar := if f.0 then CoolDowns.Trigger(s.flashBar, now) else s.flashBar)
    ensures key == KeyD ==>
      var d := Players.Defend(s.player, now);
      r.0 == s.(player := d.1, defendBar := if d.0 then CoolDowns.Trigger(s.defendBar, now) else s.defendBar)
    ensures key == OtherKey ==> r.0 == s
  {
    var s1 :=
      if key == Space || key == KeyF then
        var f := Players.Flash(s.player, now);
        if f.0 then s.(player := f.1, flashBar := CoolDowns.Trigger(s.flashBar, now)) else s
      else s;
    if key == KeyD then
      if Players.DefendCoolDownRemaining(s1.player, now) == 0.0 then
        (s1.(player := Players.Defend(s1.player, now).1,
             defendBar := CoolDowns.Trigger(s1.defendBar, now)), false)
      else (s1, false)
    else if key == Escape then (s1.(quit := true), false)
    else if key == KeyR then (Reset(o), true)
    else if key == KeyP then (if s1.alive then s1.(pause := !s1.pause) else s1, false)
    else if key == Return then
      if s1.alive then (s1.(pause := !s1.pause), false) else (Reset(o), true)
    else (s1, false)
  }

  predicate IsTimer(e: Event) {
    e.SpawnEnemy? || e.SpawnCloud? || e.SpawnBalloon? || e.Harder?
  }

  /** One event of `check_events`; the second component says whether it
      reset the game. Timer events do nothing while paused. */
  function CheckEvent(s: Game, e: Event, art: Art, o: Opening): (r: (Game, bool))
    ensures IsTimer(e) && s.pause ==> r == (s, false)
    ensures e.Harder? && !s.pause ==>
      r == (s.(level := s.level + 1, period := s.period * Decay), false)
    ensures e.SpawnEnemy? && !s.pause ==>
      r == (s.(enemies := s.enemies + [Enemies.AddEnemy(s.level, e.draw, art.missileW, art.missileH)]), false)
    ensures e.SpawnBalloon? && !s.pause ==>
      r == (s.(balloons := s.balloons + [Balloons.NewBalloon(e.height, art.balloonW, art.balloonH)]), false)
    ensures e.SpawnCloud? && !s.pause && e.coin < 0.5 ==>
      r == (s.(back := s.back + [Clouds.ToBack(Clouds.NewCloud(e.k, e.y))]), false)
    ensures e.SpawnCloud? && !s.pause && e.coin >= 0.5 ==>
      r == (s.(front := s.front + [Clouds.NewCloud(e.k, e.y)]), false)
    ensures e == WindowClose ==> r == (s.(quit := true), false)
    ensures e == OtherEvent ==> r == (s, false)
    ensures e.KeyDown? ==> r == HandleKey(s, e.key, e.now, o)
    ensures Inv(s) ==> Inv(r.0)
  {
    match e
    case KeyDown(key, now) => HandleKey(s, key, now, o)
    case WindowClose => (s.(quit := true), false)
    case SpawnEnemy(d) =>
      if !s.pause then
        (s.(enemies := s.enemies + [Enemies.AddEnemy(s.level, d, art.missileW, art.missileH)]), false)
      else (s, false)
    case SpawnCloud(k, y, coin) =>
      if !s.pause then
        var c := Clouds.NewCloud(k, y);
        if coin < 0.5 then (s.(back := s.back + [Clouds.ToBack(c)]), false)
        else (s.(front := s.front + [c]), false)
      else (s, false)
    case SpawnBalloon(height) =>
      if !s.pause then
        (s.(balloons := s.balloons + [Balloons.NewBalloon(height, art.balloonW, art.balloonH)]), false)
      else (s, false)
    case Harder =>
      if !s.pause then (s.(period := s.period * 0.8, level := s.level + 1), false)
      else (s, false)
    case OtherEvent => (s, false)
  }

  /** Whether `e` resets a game in state `s`: R always, Return once the
      player is dead. */
  predicate Resets(s: Game, e: Event) {
    e.KeyDown? && (e.key == KeyR || (e.key == Return && !s.alive))
  }

  /** `check_events`: the frame's events in order, stopping after a reset.
      Event handling keeps the invariant. */
  function CheckEvents(s: Game, evs: seq<Event>, art: Art, o: Opening): (r: Game)
    ensures Inv(s) ==> Inv(r)
    decreases |evs|
  {
    if |evs| == 0 then s
    else
      var (t, stop) := CheckEvent(s, evs[0], art, o);
      if stop then t else CheckEvents(t, evs[1..], art, o)
  }

  /** An event that does not reset hands the state on to the rest of the
      frame's events. */
  lemma CheckEventsCons(s: Game, evs: seq<Event>, art: Art, o: Opening)
    requires |evs| > 0 && !CheckEvent(s, evs[0], art, o).1
    ensures CheckEvents(s, evs, art, o) == CheckEvents(CheckEvent(s, evs[0], art, o).0, evs[1..], art, o)
  {
  }

  /** No R and no Return among the key presses of `evs`: the only keys that
      can reset the game. */
  predicate NoResetKey(evs: seq<Event>) {
    forall i :: 0 <= i < |evs| ==> !(evs[i].KeyDown? && (evs[i].key == KeyR || evs[i].key == Return))
  }

  /** The first resetting key press ends the frame's event handling: the
      game is a fresh one, and the events after the key are dropped. */
  lemma {:induction false} ResetEndsEvents(s: Game, evs: seq<Event>, art: Art, o: Opening, i: nat)
    requires i < |evs|
    requires forall j :: 0 <= j < i ==> !Resets(CheckEvents(s, evs[..j], art, o), evs[j])
    requires Resets(CheckEvents(s, evs[..i], art, o), evs[i])
    ensures CheckEvents(s, evs, art, o) == Reset(o)
    decreases i
  {
    var (t, stop) := CheckEvent(s, evs[0], art, o);
    if i == 0 {
      assert evs[..0] == [];
    } else {
      assert evs[..0] == [];
      assert !Resets(CheckEvents(s, evs[..0], art, o), evs[0]);
      assert !stop;
      forall j | 0 <= j < i
        ensures CheckEvents(s, evs[..j + 1], art, o) == CheckEvents(t, evs[1..][..j], art, o)
      {
        PrefixStep(s, evs, art, o, j);
      }
      forall j | 0 <= j < i - 1
        ensures !Resets(CheckEvents(t, evs[1..][..j], art, o), evs[1..][j])
      {
        assert evs[1..][j] == evs[j + 1];
      }
      assert evs[1..][i - 1] == evs[i];
      ResetEndsEvents(t, evs[1..], art, o, i - 1);
    }
  }

  /** Handling the first `j + 1` events, the first of which does not reset,
      is handling the first and then the next `j`. */
  lemma PrefixStep(s: Game, evs: seq<Event>, art: Art, o: Opening, j: nat)
    requires j < |evs| && !CheckEvent(s, evs[0], art, o).1
    ensures CheckEvents(s, evs[..j + 1], art, o)
            == CheckEvents(CheckEvent(s, evs[0], art, o).0, evs[1..][..j], art, o)
  {
    var p := evs[..j + 1];
    assert p[0] == evs[0];
    assert p[1..] == evs[1..][..j];
    CheckEventsCons(s, p, art, o);
  }

  /** While paused, any number of timer events changes nothing: timers keep
      firing, and their events are dropped. */
  lemma {:induction false} PausedTimersInert(s: Game, evs: seq<Event>, art: Art, o: Opening)
    requires s.pause
    requires forall i :: 0 <= i < |evs| ==> IsTimer(evs[i])
    ensures CheckEvents(s, evs, art, o) == s
    decreases |evs|
  {
    if |evs| > 0 {
      PausedTimersInert(s, evs[1..], art, o);
    }
  }

  function Pow(b: real, n: nat): real
    decreases n
  {
    if n == 0 then 1.0 else b * Pow(b, n - 1)
  }

  /** `n` difficulty events while running raise the level by `n` and scale the
      missile period by 0.8^n, and change nothing else. */
  lemma {:induction false} DifficultyTicks(s: Game, evs: seq<Event>, art: Art, o: Opening)
    requires !s.pause
    requires forall i :: 0 <= i < |evs| ==> evs[i] == Harder
    ensures CheckEvents(s, evs, art, o)
            == s.(level := s.level + |evs|, period := s.period * Pow(Decay, |evs|))
    decreases |evs|
  {
    if |evs| > 0 {
      var t := s.(level := s.level + 1, period := s.period * Decay);
      assert CheckEvent(s, evs[0], art, o) == (t, false);
      CheckEventsCons(s, evs, art, o);
      DifficultyTicks(t, evs[1..], art, o);
      TickThenTicks(s, |evs|);
    }
  }

  /** From a fresh game, after `n` difficulty ticks the level is 1 + n and the
      missile period is 1000 * 0.8^n milliseconds. */
  lemma LevelAfterTicks(o: Opening, evs: seq<Event>, art: Art)
    requires forall i :: 0 <= i < |evs| ==> evs[i] == Harder
    ensures CheckEvents(Reset(o), evs, art, o).level == 1 + |evs|
    ensures CheckEvents(Reset(o), evs, art, o).period == StartPeriod * Pow(Decay, |evs|)
  {
    DifficultyTicks(Reset(o), evs, art, o);
  }

  /** The value the missile timer is re-armed with after a difficulty tick:
      `int(period)`, the period truncated towards zero to whole milliseconds.
      0 switches the timer off. */
  function TimerMillis(period: real): (ms: int)
    ensures period >= 0.0 ==> 0 <= ms && ms as real <= period < ms as real + 1.0
    ensures period < 0.0 ==> ms <= 0 && ms as real - 1.0 < period <= ms as real
  {
    if period >= 0.0 then period.Floor else -((-period).Floor)
  }

  /** The 30th difficulty tick still re-arms the missile timer (1 ms), the
      31st and every later one re-arm it with 0, which stops it: from level
      32 on no missile is spawned. */
  lemma MissileTimerStops(n: nat)
    ensures TimerMillis(StartPeriod * Pow(Decay, 30)) == 1
    ensures n >= 31 ==> TimerMillis(StartPeriod * Pow(Decay, n)) == 0
  {
    Decay30();
    if n >= 31 {
      PowAdd(Decay, 31, n - 31);
      DecayBounded(n - 31);
      assert Pow(Decay, 31) * Pow(Decay, n - 31) <= Pow(Decay, 31);
    }
  }

  /** 0.8^30 exactly, and 0.8^31 from it. */
  lemma Decay30()
    ensures Pow(Decay, 30) == 0.001237940039285380274899124224
    ensures Pow(Decay, 31) == Decay * 0.001237940039285380274899124224
  {
    assert Pow(Decay, 5) == 0.32768;
    PowAdd(Decay, 5, 5);
    assert Pow(Decay, 10) == 0.1073741824;
    PowAdd(Decay, 10, 10);
    assert Pow(Decay, 20) == 0.01152921504606846976;
    PowAdd(Decay, 20, 10);
    assert Pow(Decay, 30) == 0.001237940039285380274899124224;
    assert Pow(Decay, 31) == Decay * Pow(Decay, 30);
  }

  /** One tick followed by `n - 1` more is `n` ticks. */
  lemma TickThenTicks(s: Game, n: nat)
    requires n > 0
    ensures var t := s.(level := s.level + 1, period := s.period * Decay);
            t.(level := t.level + (n - 1), period := t.period * Pow(Decay, n - 1))
            == s.(level := s.level + n, period := s.period * Pow(Decay, n))
  {
    DecayStep(s.period, n);
  }

  /** One more tick scales the period by one more factor 0.8. */
  lemma DecayStep(p: real, n: nat)
    requires n > 0
    ensures (p * Decay) * Pow(Decay, n - 1) == p * Pow(Decay, n)
  {
    assert Pow(Decay, n) == Decay * Pow(Decay, n - 1);
  }

  lemma {:induction false} DecayBounded(n: nat)
    ensures 0.0 <= Pow(Decay, n) <= 1.0
    decreases n
  {
    if n > 0 {
      DecayBounded(n - 1);
    }
  }

  lemma {:induction false} PowAdd(b: real, m: nat, n: nat)
    ensures Pow(b, m + n) == Pow(b, m) * Pow(b, n)
    decreases m
  {
    if m > 0 {
      PowAdd(b, m - 1, n);
      assert Pow(b, m + n) == b * Pow(b, m - 1 + n);
    }
  }

  /** The missile the player is touching, if any (the first in the group). */
  function EnemyHit(s: Game): Option<nat> {
    FirstHit(s.enemies, (e: Enemies.Enemy) => e.rect, s.player.rect)
  }

  /** The balloon the player is touching, if any (the first in the group). */
  function BalloonHit(s: Game): Option<nat> {
    FirstHit(s.balloons, (b: Balloons.Balloon) => b.rect, s.player.rect)
  }

  /** Whether this frame's missile hit is fatal: the player is not defending. */
  predicate Fatal(s: Game) {
    EnemyHit(s).Some? && s.player.defending == 0
  }

  /** `check_collisions`: at most one missile and one balloon per frame. A
      missile hit while defending destroys the missile for 5 points; without
      defence it destroys the missile and ends the game (`player_loses`).
      The balloon check runs either way and is worth 10 + 2 (level - 1). */
  function Collisions(s: Game): (r: Game)
    ensures EnemyHit(s).None? ==> r.enemies == s.enemies
    ensures EnemyHit(s).Some? ==> r.enemies == RemoveAt(s.enemies, EnemyHit(s).value)
    ensures BalloonHit(s).None? ==> r.balloons == s.balloons
    ensures BalloonHit(s).Some? ==> r.balloons == RemoveAt(s.balloons, BalloonHit(s).value)
    ensures r.alive == (s.alive && !Fatal(s)) && r.pause == (s.pause || Fatal(s))
    ensures r.score == s.score
                       + (if EnemyHit(s).Some? && !Fatal(s) then DefendedHitScore else 0)
                       + (if BalloonHit(s).Some? then BalloonScore(s.level) else 0)
    ensures s.level >= 1 ==> r.score >= s.score
    ensures r.(enemies := s.enemies, balloons := s.balloons, alive := s.alive, pause := s.pause,
               score := s.score) == s
  {
    var s1 :=
      match EnemyHit(s)
      case None => s
      case Some(i) =>
        if s.player.defending != 0 then
          s.(enemies := RemoveAt(s.enemies, i), score := s.score + 5)
        else
          s.(enemies := RemoveAt(s.enemies, i), pause := true, alive := false);
    assert BalloonHit(s1) == BalloonHit(s);
    match FirstHit(s1.balloons, (b: Balloons.Balloon) => b.rect, s1.player.rect)
    case None => s1
    case Some(j) =>
      s1.(score := s1.score + 10 + (s1.level - 1) * 2, balloons := RemoveAt(s1.balloons, j))
  }

  /** `update_sprites`: the player moves with the held `keys`, every group
      runs its members' updates (dropping those that kill themselves), and
      both bars are redrawn for the wall-clock second `now`. `sway` is the
      vertical step of each sinusoidal missile. Nothing else changes. */
  function UpdateSprites(s: Game, keys: Players.Keys, now: real, sway: Enemies.Enemy -> int): (m: Game)
    ensures m.player == Players.Update(s.player, keys)
    ensures m.enemies == Survivors(s.enemies, (e: Enemies.Enemy) => Enemies.Update(e, sway(e)))
    ensures m.back == Survivors(s.back, Clouds.Update) && m.front == Survivors(s.front, Clouds.Update)
    ensures m.balloons == Survivors(s.balloons, Balloons.Update)
    ensures m.flashBar == CoolDowns.Update(s.flashBar, now) && m.defendBar == CoolDowns.Update(s.defendBar, now)
    ensures |m.enemies| <= |s.enemies| && |m.balloons| <= |s.balloons|
    ensures |m.back| <= |s.back| && |m.front| <= |s.front|
    ensures forall i :: 0 <= i < |s.balloons| && Balloons.Update(s.balloons[i]).Some? ==>
              Balloons.Update(s.balloons[i]).value in m.balloons
    ensures m.flashBar.length >= 0.0 && m.defendBar.length >= 0.0
    ensures m.(player := s.player, enemies := s.enemies, back := s.back, front := s.front,
               balloons := s.balloons, flashBar := s.flashBar, defendBar := s.defendBar) == s
  {
    s.(
      player := Players.Update(s.player, keys),
      enemies := Survivors(s.enemies, (e: Enemies.Enemy) => Enemies.Update(e, sway(e))),
      back := Survivors(s.back, Clouds.Update),
      front := Survivors(s.front, Clouds.Update),
      balloons := Survivors(s.balloons, Balloons.Update),
      flashBar := CoolDowns.Update(s.flashBar, now),
      defendBar := CoolDowns.Update(s.defendBar, now))
  }

  /** `run_frame` without the drawing and without the end screen it opens on
      a death (see `Pass`): `update_sprites` followed by `check_collisions`. The player dies exactly when, after the update, it
      touches a missile with its defend counter at 0. */
  function Advance(s: Game, keys: Players.Keys, now: real, sway: Enemies.Enemy -> int): (r: Game)
    ensures s.player.rect.FitsScreen() ==> r.player.rect.OnScreen()
    ensures r.player == Players.Update(s.player, keys)
    ensures r.alive <==> s.alive && !(r.player.defending == 0 && EnemyHit(UpdateSprites(s, keys, now, sway)).Some?)
    ensures |r.enemies| <= |s.enemies| && |r.balloons| <= |s.balloons|
    ensures |r.back| <= |s.back| && |r.front| <= |s.front|
    ensures r.level == s.level && r.period == s.period && r.quit == s.quit
    ensures s.level >= 1 ==> r.score >= s.score
    ensures Inv(s) ==> Inv(r)
    ensures r.flashBar.length >= 0.0 && r.defendBar.length >= 0.0
  {
    Collisions(UpdateSprites(s, keys, now, sway))
  }

  /** The state after one `Advance` per element of `ks`, the `i`-th frame at
      wall-clock second `nows[i]`. */
  function Advances(s: Game, ks: seq<Players.Keys>, nows: seq<real>, sway: Enemies.Enemy -> int): Game
    requires |nows| == |ks|
    decreases |ks|
  {
    if |ks| == 0 then s else Advances(Advance(s, ks[0], nows[0], sway), ks[1..], nows[1..], sway)
  }

  /** A defend counter above the number of frames protects all of them,
      whatever they bring: the player cannot die, and the counter drops by
      one per frame. A defend sets it to 5, which covers the next four
      frames. */
  lemma {:induction false} DefendCovers(s: Game, ks: seq<Players.Keys>, nows: seq<real>,
                                        sway: Enemies.Enemy -> int)
    requires |ks| < s.player.defending && |nows| == |ks|
    ensures Advances(s, ks, nows, sway).alive == s.alive
    ensures Advances(s, ks, nows, sway).player.defending == s.player.defending - |ks|
    decreases |ks|
  {
    if |ks| > 0 {
      DefendCovers(Advance(s, ks[0], nows[0], sway), ks[1..], nows[1..], sway);
    }
  }

  /** The fifth frame after a defend is not protected: its update brings the
      counter to 0 before the collision check, so touching a missile then is
      fatal. */
  lemma FifthFrameExposed(s: Game, ks: seq<Players.Keys>, nows: seq<real>, sway: Enemies.Enemy -> int,
                          keys: Players.Keys, now: real)
    requires s.player.defending == Players.DefendFrames && |ks| == Players.DefendFrames - 1 && |nows| == |ks|
    ensures var t := Advances(s, ks, nows, sway);
            EnemyHit(UpdateSprites(t, keys, now, sway)).Some? ==> !Advance(t, keys, now, sway).alive
  {
    DefendCovers(s, ks, nows, sway);
  }

  /** One pass of `main`'s loop up to the end screen: handle the events, then
      run a frame only when neither paused nor dead. The second component
      says whether the end screen is due in this pass; `Pass` shows it. */
  function Frame(s: Game, evs: seq<Event>, keys: Players.Keys, now: real,
                 sway: Enemies.Enemy -> int, art: Art, o: Opening): (r: (Game, bool))
    ensures CheckEvents(s, evs, art, o).pause ==> r == (CheckEvents(s, evs, art, o), false)
    ensures !CheckEvents(s, evs, art, o).pause && CheckEvents(s, evs, art, o).alive ==>
      r.0 == Advance(CheckEvents(s, evs, art, o), keys, now, sway)
    ensures r.0.level == CheckEvents(s, evs, art, o).level
    ensures r.0.period == CheckEvents(s, evs, art, o).period
    ensures r.0.quit == CheckEvents(s, evs, art, o).quit
  {
    var t := CheckEvents(s, evs, art, o);
    if !t.pause then
      if t.alive then
        var u := Advance(t, keys, now, sway);
        (u, !u.alive)
      else (t, true)
    else (t, false)
  }

  /** Every frame keeps the invariant. */
  lemma FrameInv(s: Game, evs: seq<Event>, keys: Players.Keys, now: real,
                 sway: Enemies.Enemy -> int, art: Art, o: Opening)
    requires Inv(s)
    ensures Inv(Frame(s, evs, keys, now, sway, art, o).0)
  {
  }

  /** The end screen is shown exactly on the frame a live, running player
      dies: `main`'s branch for a dead, unpaused player is never taken. */
  lemma EndScreenOnDeath(s: Game, evs: seq<Event>, keys: Players.Keys, now: real,
                         sway: Enemies.Enemy -> int, art: Art, o: Opening)
    requires Inv(s)
    ensures Frame(s, evs, keys, now, sway, art, o).1 <==>
      var t := CheckEvents(s, evs, art, o);
      t.alive && !t.pause && !Frame(s, evs, keys, now, sway, art, o).0.alive
  {
  }

  /** Events handled while the player is dead and no R or Return is pressed
      change nothing but the quit flag and what flash and defend do to the
      player and the bars: P does not unpause a dead player, and every timer
      event is dropped. */
  lemma {:induction false} DeadEventsInert(s: Game, evs: seq<Event>, art: Art, o: Opening)
    requires s.pause && !s.alive && NoResetKey(evs)
    ensures var t := CheckEvents(s, evs, art, o);
            t.pause && !t.alive
            && t.score == s.score && t.level == s.level && t.period == s.period
            && t.enemies == s.enemies && t.balloons == s.balloons
            && t.back == s.back && t.front == s.front
    decreases |evs|
  {
    if |evs| > 0 {
      var (t, stop) := CheckEvent(s, evs[0], art, o);
      assert NoResetKey(evs[1..]) by {
        forall i | 0 <= i < |evs| - 1
          ensures !(evs[1..][i].KeyDown? && (evs[1..][i].key == KeyR || evs[1..][i].key == Return))
        {
          assert evs[1..][i] == evs[i + 1];
        }
      }
      DeadEventsInert(t, evs[1..], art, o);
    }
  }

  /** After death nothing moves until a reset: a frame of a dead (hence
      paused) game without R or Return keeps it dead and paused, with score,
      level, missile period and every sprite group unchanged, and does not
      show the end screen again. */
  lemma DeadStaysDead(s: Game, evs: seq<Event>, keys: Players.Keys, now: real,
                      sway: Enemies.Enemy -> int, art: Art, o: Opening)
    requires Inv(s) && !s.alive && NoResetKey(evs)
    ensures var r := Frame(s, evs, keys, now, sway, art, o);
            !r.0.alive && r.0.pause && !r.1
            && r.0.score == s.score && r.0.level == s.level && r.0.period == s.period
            && r.0.enemies == s.enemies && r.0.balloons == s.balloons
            && r.0.back == s.back && r.0.front == s.front
  {
    DeadEventsInert(s, evs, art, o);
  }

  /** Escape followed by R in the same frame does not quit: the reset
      re-initialises the quit flag. */
  lemma EscapeThenResetKeepsPlaying(s: Game, art: Art, o: Opening)
    ensures !CheckEvents(s, [KeyDown(Escape, 0.0), KeyDown(KeyR, 0.0)], art, o).quit
    ensures CheckEvents(s, [KeyDown(Escape, 0.0)], art, o).quit
  {
  }

  /** The end screen, given how the name box was left. If the window was
      closed, pygame is shut down and the next drawing call raises, so the
      program ends without storing anything. Otherwise the quit flag is the
      one the box left behind, and the high-score table becomes the top five
      of the old table plus (name, final score) only if a name was entered. */
  function EndScreen(s: Game, ed: NameEntry.Editor, hs: seq<HighScores.Entry>)
    : (r: (Game, seq<HighScores.Entry>))
    ensures ed.closed ==> r == (s.(quit := true), hs)
    ensures !ed.closed ==> r.0 == s.(quit := ed.quit)
    ensures !NameEntry.Named(ed.text) ==> r.1 == hs
    ensures !ed.closed && NameEntry.Named(ed.text) ==>
      r.1 == HighScores.Merge(hs, HighScores.Entry(ed.text, s.score))
  {
    if ed.closed then (s.(quit := true), hs)
    else
      var s' := s.(quit := ed.quit);
      if NameEntry.Named(ed.text) then
        (s', HighScores.Merge(hs, HighScores.Entry(ed.text, s.score)))
      else (s', hs)
  }

  /** Typing a name (other than "" and "\n") and pressing Return at the end
      of a game with fewer than five high scores stores that name with the
      final score, and the game goes on with its quit flag as it was. */
  lemma NameEnteredIsStored(s: Game, name: string, hs: seq<HighScores.Entry>)
    requires name != "" && name != "\n" && |hs| < HighScores.TableSize
    ensures var ed := NameEntry.Session(NameEntry.Start(s.quit), [NameEntry.TypeAll(name) + [NameEntry.Press(NameEntry.Enter)]]);
            var r := EndScreen(s, ed, hs);
            r.0 == s && HighScores.Entry(name, s.score) in r.1
  {
    NameEntry.TypedNameIsNamed(name, s.quit);
    NameEntry.TypedNameRoundTrip(name, s.quit);
    HighScores.RoomLeft(hs, HighScores.Entry(name, s.score));
  }

  /** One full pass of `main`'s loop: `Frame`, and on the frame the player
      dies the end screen in the same pass (`run_frame` calls it), with the
      name box polling `batches` and starting from the frame's quit flag. */
  function Pass(s: Game, evs: seq<Event>, keys: Players.Keys, now: real, sway: Enemies.Enemy -> int,
                art: Art, o: Opening, batches: seq<seq<NameEntry.NameEvent>>, hs: seq<HighScores.Entry>)
    : (r: (Game, seq<HighScores.Entry>))
    ensures var f := Frame(s, evs, keys, now, sway, art, o);
            r.0.(quit := f.0.quit) == f.0 && (!f.1 ==> r == (f.0, hs))
  {
    var f := Frame(s, evs, keys, now, sway, art, o);
    if f.1 then EndScreen(f.0, NameEntry.Session(NameEntry.Start(f.0.quit), batches), hs)
    else (f.0, hs)
  }

  /** On the pass the player dies, the loop goes on exactly when the window
      stayed open and the name box left the quit flag clear; the table
      changes only on that pass and only when a name was entered. */
  lemma DeathPassQuit(s: Game, evs: seq<Event>, keys: Players.Keys, now: real, sway: Enemies.Enemy -> int,
                      art: Art, o: Opening, batches: seq<seq<NameEntry.NameEvent>>, hs: seq<HighScores.Entry>)
    ensures var f := Frame(s, evs, keys, now, sway, art, o);
            var ed := NameEntry.Session(NameEntry.Start(f.0.quit), batches);
            var r := Pass(s, evs, keys, now, sway, art, o, batches, hs);
            (f.1 ==> (r.0.quit <==> ed.closed || ed.quit))
            && (r.1 != hs ==> f.1 && !ed.closed && NameEntry.Named(ed.text))
  {
  }

  /** A live, running player who dies and then types a name and presses
      Return gets (name, final score) into a table with room, and the loop
      keeps the quit flag the frame's events left. */
  lemma DeathThenNameIsStored(s: Game, evs: seq<Event>, keys: Players.Keys, now: real,
                              sway: Enemies.Enemy -> int, art: Art, o: Opening,
                              name: string, hs: seq<HighScores.Entry>)
    requires name != "" && name != "\n" && |hs| < HighScores.TableSize
    requires Frame(s, evs, keys, now, sway, art, o).1
    ensures var f := Frame(s, evs, keys, now, sway, art, o);
            var r := Pass(s, evs, keys, now, sway, art, o,
                          [NameEntry.TypeAll(name) + [NameEntry.Press(NameEntry.Enter)]], hs);
            r.0 == f.0 && HighScores.Entry(name, f.0.score) in r.1
  {
    NameEnteredIsStored(Frame(s, evs, keys, now, sway, art, o).0, name, hs);
  }
}

=== FILE: geometry.dfy ===
/** Integer rectangles as pygame.Rect keeps them, and the fixed play-field. */
module Geometry {

  /** The display is created once at 800 x 600 pixels. */
  const ScreenWidth: int := 800
  const ScreenHeight: int := 600

  /** A pygame.Rect: integer top-left corner and a size. The game never builds a
      rectangle of negative size, so the size is a `nat`. */
  datatype Rect = Rect(x: int, y: int, w: nat, h: nat) {

    function Left(): int { x }
    function Right(): int { x + w }
    function Top(): int { y }
    function Bottom(): int { y + h }

    /** `Rect.move_ip`: translate in place, size unchanged. */
    function Move(dx: int, dy: int): Rect {
      Rect(x + dx, y + dy, w, h)
    }

    /** Both edges of the rectangle lie on the screen. */
    predicate OnScreen() {
      0 <= Left() && Right() <= ScreenWidth && 0 <= Top() && Bottom() <= ScreenHeight
    }

    /** The rectangle is no larger than the screen, so it can be placed on it. */
    predicate FitsScreen() {
      w <= ScreenWidth && h <= ScreenHeight
    }
  }

  /** `Rect.colliderect` (pygame 2): an empty rectangle never collides; otherwise
      the two open areas must overlap on both axes. */
  predicate Collide(a: Rect, b: Rect) {
    && a.w > 0 && a.h > 0 && b.w > 0 && b.h > 0
    && a.Left() < b.Right() && b.Left() < a.Right()
    && a.Top() < b.Bottom() && b.Top() < a.Bottom()
  }
}

=== FILE: highscores.dfy ===
/** The high-score table kept at the end of a game: the new (name, score) is
    appended, the list is sorted by score, highest first, with Python's
    stable `sorted`, and only the first five are kept. Loading and storing
    the table is left to the caller. */
module HighScores {

  datatype Entry = Entry(name: string, score: int)

  const TableSize: nat := 5

  predicate SortedDesc(s: seq<Entry>) {
    forall i, j :: 0 <= i < j < |s| ==> s[i].score >= s[j].score
  }

  /** Place `x` after every entry that scores at least as much. Inserting the
      elements of a list one by one, left to right, is therefore a stable sort. */
  function Insert(x: Entry, s: seq<Entry>): (r: seq<Entry>)
    ensures |r| == |s| + 1
    ensures multiset(r) == multiset(s) + multiset{x}
    decreases |s|
  {
    if |s| == 0 then [x]
    else if s[0].score < x.score then [x] + s
    else
      assert s == [s[0]] + s[1..];
      [s[0]] + Insert(x, s[1..])
  }

  lemma SortedTail(s: seq<Entry>)
    requires SortedDesc(s) && |s| > 0
    ensures SortedDesc(s[1..])
  {
    forall i, j | 0 <= i < j < |s| - 1 ensures s[1..][i].score >= s[1..][j].score {
      assert s[1..][i] == s[i + 1] && s[1..][j] == s[j + 1];
    }
  }

  /** Inserting into a sorted list keeps it sorted. */
  lemma {:induction false} InsertSorted(x: Entry, s: seq<Entry>)
    requires SortedDesc(s)
    ensures SortedDesc(Insert(x, s))
    decreases |s|
  {
    if |s| > 0 && s[0].score >= x.score {
      SortedTail(s);
      InsertSorted(x, s[1..]);
      var rest := Insert(x, s[1..]);
      assert forall i :: 0 <= i < |s[1..]| ==> s[1..][i].score <= s[0].score by {
        forall i | 0 <= i < |s[1..]| ensures s[1..][i].score <= s[0].score {
          assert s[1..][i] == s[i + 1];
        }
      }
      InsertBounded(x, s[1..], s[0].score);
      InsertUnfold(x, s);
      ConsSorted(s[0], rest);
    } else if |s| > 0 {
      assert Insert(x, s) == [x] + s;
      ConsSorted(x, s);
    }
  }

  /** Inserting an entry into a list keeps every score at most `b` if the
      entry and the list already are. */
  lemma {:induction false} InsertBounded(x: Entry, s: seq<Entry>, b: int)
    requires x.score <= b && forall i :: 0 <= i < |s| ==> s[i].score <= b
    ensures forall k :: 0 <= k < |Insert(x, s)| ==> Insert(x, s)[k].score <= b
    decreases |s|
  {
    if |s| > 0 && s[0].score >= x.score {
      assert forall i :: 0 <= i < |s[1..]| ==> s[1..][i].score <= b by {
        forall i | 0 <= i < |s[1..]| ensures s[1..][i].score <= b {
          assert s[1..][i] == s[i + 1];
        }
      }
      InsertBounded(x, s[1..], b);
      InsertUnfold(x, s);
      BoundedCons(s[0], Insert(x, s[1..]), b);
    }
  }

  lemma BoundedCons(e: Entry, t: seq<Entry>, b: int)
    requires e.score <= b && forall k :: 0 <= k < |t| ==> t[k].score <= b
    ensures forall k :: 0 <= k < |[e] + t| ==> ([e] + t)[k].score <= b
  {
    forall k | 0 <= k < |[e] + t| ensures ([e] + t)[k].score <= b {
      if k > 0 {
        assert ([e] + t)[k] == t[k - 1];
      }
    }
  }

  /** An entry scoring at least as much as every entry of a sorted list can
      head it. */
  lemma ConsSorted(e: Entry, t: seq<Entry>)
    requires SortedDesc(t) && forall k :: 0 <= k < |t| ==> t[k].score <= e.score
    ensures SortedDesc([e] + t)
  {
    forall i, j | 0 <= i < j < |t| + 1 ensures ([e] + t)[i].score >= ([e] + t)[j].score {
      assert ([e] + t)[j] == t[j - 1];
      if i > 0 {
        assert ([e] + t)[i] == t[i - 1];
      }
    }
  }

  /** The entries of `s` that score exactly `v`, in their order in `s`. A
      sort is stable when it keeps every one of these lists as it is. */
  function WithScore(s: seq<Entry>, v: int): (r: seq<Entry>)
    ensures |r| <= |s|
    decreases |s|
  {
    if |s| == 0 then []
    else (if s[0].score == v then [s[0]] else []) + WithScore(s[1..], v)
  }

  lemma {:induction false} WithScoreAppend(a: seq<Entry>, b: seq<Entry>, v: int)
    ensures WithScore(a + b, v) == WithScore(a, v) + WithScore(b, v)
    decreases |a|
  {
    if |a| == 0 {
      assert a + b == b;
    } else {
      var h := if a[0].score == v then [a[0]] else [];
      assert (a + b)[0] == a[0];
      assert (a + b)[1..] == a[1..] + b;
      assert WithScore(a + b, v) == h + WithScore(a[1..] + b, v);
      WithScoreAppend(a[1..], b, v);
      assert WithScore(a, v) == h + WithScore(a[1..], v);
    }
  }

  lemma {:induction false} WithScoreNone(s: seq<Entry>, v: int)
    requires forall i :: 0 <= i < |s| ==> s[i].score < v
    ensures WithScore(s, v) == []
    decreases |s|
  {
    if |s| > 0 {
      WithScoreNone(s[1..], v);
    }
  }

  /** `Insert` puts a new entry after every entry of a sorted list with the
      same score. */
  lemma {:induction false} InsertStable(x: Entry, s: seq<Entry>, v: int)
    requires SortedDesc(s)
    ensures WithScore(Insert(x, s), v) == WithScore(s, v) + WithScore([x], v)
    decreases |s|
  {
    if |s| == 0 {
    } else if s[0].score < x.score {
      assert forall i :: 0 <= i < |s| ==> s[i].score < x.score by {
        forall i | 0 <= i < |s| ensures s[i].score < x.score {
          if i > 0 {
            assert s[0].score >= s[i].score;
          }
        }
      }
      InsertFront(x, s, v);
    } else {
      SortedTail(s);
      InsertStable(x, s[1..], v);
      InsertUnfold(x, s);
      assert s == [s[0]] + s[1..];
      ConsWithScore(s[0], Insert(x, s[1..]), s[1..], x, v);
    }
  }

  lemma InsertFront(x: Entry, s: seq<Entry>, v: int)
    requires |s| > 0 && forall i :: 0 <= i < |s| ==> s[i].score < x.score
    ensures WithScore(Insert(x, s), v) == WithScore(s, v) + WithScore([x], v)
  {
    assert Insert(x, s) == [x] + s;
    WithScoreAppend([x], s, v);
    if x.score == v {
      WithScoreNone(s, v);
    }
  }

  /** Putting the same entry in front of two lists that agree on score `v`
      up to a trailing `x` keeps them so. */
  lemma ConsWithScore(e: Entry, rest: seq<Entry>, tail: seq<Entry>, x: Entry, v: int)
    requires WithScore(rest, v) == WithScore(tail, v) + WithScore([x], v)
    ensures WithScore([e] + rest, v) == WithScore([e] + tail, v) + WithScore([x], v)
  {
    WithScoreAppend([e], rest, v);
    WithScoreAppend([e], tail, v);
  }

  lemma InsertUnfold(x: Entry, s: seq<Entry>)
    requires |s| > 0 && s[0].score >= x.score
    ensures Insert(x, s) == [s[0]] + Insert(x, s[1..])
  {
  }

  /** One step of the sort: inserting the last entry into the sorted init
      keeps each equal-score list in input order. */
  lemma SortStep(init: seq<Entry>, sorted: seq<Entry>, x: Entry)
    requires SortedDesc(sorted)
    requires forall v :: WithScore(sorted, v) == WithScore(init, v)
    ensures forall v :: WithScore(Insert(x, sorted), v) == WithScore(init + [x], v)
  {
    forall v ensures WithScore(Insert(x, sorted), v) == WithScore(init + [x], v) {
      InsertStable(x, sorted, v);
      WithScoreAppend(init, [x], v);
    }
  }

  /** `sorted(s, key=score, reverse=True)`: a stable sort, highest score
      first. */
  function SortDesc(s: seq<Entry>): (r: seq<Entry>)
    ensures |r| == |s|
    ensures multiset(r) == multiset(s)
    ensures SortedDesc(r)
    ensures forall v :: WithScore(r, v) == WithScore(s, v)
    decreases |s|
  {
    if |s| == 0 then []
    else
      var init := s[..|s| - 1];
      assert s == init + [s[|s| - 1]];
      InsertSorted(s[|s| - 1], SortDesc(init));
      SortStep(init, SortDesc(init), s[|s| - 1]);
      Insert(s[|s| - 1], SortDesc(init))
  }

  /** `sorted(hs + [[name, score]], ...)[:5]`: the table has min(n + 1, 5)
      entries, highest first, each taken from the old table or the new
      entry, and nothing it dropped outscores anything it kept. */
  function Merge(hs: seq<Entry>, e: Entry): (r: seq<Entry>)
    ensures |r| == if |hs| + 1 < TableSize then |hs| + 1 else TableSize
    ensures SortedDesc(r)
    ensures multiset(r) <= multiset(hs) + multiset{e}
    ensures forall x, y :: x in multiset(hs) + multiset{e} - multiset(r) && y in r
              ==> x.score <= y.score
  {
    var all := SortDesc(hs + [e]);
    assert multiset(hs + [e]) == multiset(hs) + multiset{e};
    if |all| <= TableSize then all
    else
      PrefixOfSorted(all, TableSize);
      all[..TableSize]
  }

  /** Cutting a sorted list after `n` entries: the prefix is sorted, and every
      entry cut off scores no more than any entry kept. */
  lemma PrefixOfSorted(all: seq<Entry>, n: nat)
    requires SortedDesc(all) && n <= |all|
    ensures SortedDesc(all[..n])
    ensures multiset(all[..n]) <= multiset(all)
    ensures forall x, y :: x in multiset(all) - multiset(all[..n]) && y in all[..n] ==> x.score <= y.score
  {
    var kept, rest := all[..n], all[n..];
    forall i, j | 0 <= i < j < |kept| ensures kept[i].score >= kept[j].score {
      assert kept[i] == all[i] && kept[j] == all[j];
    }
    assert all == kept + rest;
    assert multiset(all) == multiset(kept) + multiset(rest);
    forall x, y | x in multiset(all) - multiset(kept) && y in kept
      ensures x.score <= y.score
    {
      assert x in multiset(rest);
      CutScores(all, n, x, y);
    }
  }

  lemma CutScores(all: seq<Entry>, n: nat, x: Entry, y: Entry)
    requires SortedDesc(all) && n <= |all| && x in multiset(all[n..]) && y in all[..n]
    ensures x.score <= y.score
  {
    assert x in all[n..];
    var i :| 0 <= i < |all[n..]| && all[n..][i] == x;
    var j :| 0 <= j < |all[..n]| && all[..n][j] == y;
    assert all[n + i] == x && all[j] == y && j < n + i;
  }

  /** Inserting an entry that scores no more than anything in the list puts
      it last. */
  lemma InsertLast(x: Entry, s: seq<Entry>)
    requires forall i :: 0 <= i < |s| ==> s[i].score >= x.score
    ensures Insert(x, s) == s + [x]
    decreases |s|
  {
    if |s| > 0 {
      InsertLast(x, s[1..]);
    }
  }

  /** Sorting an already sorted table leaves it as it is (stability). */
  lemma {:induction false} SortSortedIsIdentity(s: seq<Entry>)
    requires SortedDesc(s)
    ensures SortDesc(s) == s
    decreases |s|
  {
    if |s| > 0 {
      var init := s[..|s| - 1];
      SortSortedIsIdentity(init);
      InsertLast(s[|s| - 1], init);
      assert init + [s[|s| - 1]] == s;
    }
  }

  /** An entry that outscores the entry at position `i` of a sorted list
      lands at or before position `i`. */
  lemma {:induction false} InsertBefore(x: Entry, s: seq<Entry>, i: nat)
    requires SortedDesc(s) && i < |s| && s[i].score < x.score
    ensures x in Insert(x, s)[..i + 1]
    decreases |s|
  {
    if s[0].score >= x.score {
      assert i > 0;
      SortedTail(s);
      assert s[1..][i - 1] == s[i];
      InsertBefore(x, s[1..], i - 1);
      var rest := Insert(x, s[1..]);
      assert Insert(x, s) == [s[0]] + rest;
      assert Insert(x, s)[..i + 1] == [s[0]] + rest[..i];
      var k :| 0 <= k < i && rest[..i][k] == x;
      assert ([s[0]] + rest[..i])[k + 1] == x;
    } else {
      assert Insert(x, s)[..i + 1][0] == x;
    }
  }

  /** Once the table is full and sorted, a new score that only ties (or does
      not reach) the fifth entry is dropped and the table is unchanged; a
      strictly higher one gets in. */
  lemma {:induction false} FullTable(hs: seq<Entry>, e: Entry)
    requires SortedDesc(hs) && |hs| == TableSize
    ensures e.score <= hs[TableSize - 1].score ==> Merge(hs, e) == hs
    ensures e.score > hs[TableSize - 1].score ==> e in Merge(hs, e)
  {
    assert (hs + [e])[..|hs|] == hs;
    SortSortedIsIdentity(hs);
    assert SortDesc(hs + [e]) == Insert(e, hs);
    if e.score <= hs[TableSize - 1].score {
      InsertLast(e, hs);
      assert (hs + [e])[..TableSize] == hs;
    } else {
      InsertBefore(e, hs, TableSize - 1);
    }
  }

  /** A table with room left always takes the new entry. */
  lemma {:induction false} RoomLeft(hs: seq<Entry>, e: Entry)
    requires |hs| < TableSize
    ensures e in Merge(hs, e)
  {
    var all := SortDesc(hs + [e]);
    assert e in multiset(hs + [e]);
    assert e in multiset(all);
  }
}

=== FILE: nameentry.dfy ===
/** The name-entry box shown after a game ends (`input_name`): a one-line
    text editor driven by key presses, polled in batches, one batch per
    frame, until Return or Escape ends it, or a window close shuts the
    display down. */
module NameEntry {

  /** A key press as the editor sees it; `Typed` is any other key together
      with the text it produces (possibly empty, e.g. for Shift). */
  datatype NameKey = Enter | Esc | Backspace | Typed(text: string)

  /** `Close` is the window-close event; `Ignored` anything else. */
  datatype NameEvent = Close | Press(key: NameKey) | Ignored

  /** The text so far, whether the box is still open, the game loop's quit
      flag, which the editor may set or clear, and whether a window close has
      shut pygame down. */
  datatype Editor = Editor(text: string, entering: bool, quit: bool, closed: bool)

  function Start(quit: bool): (ed: Editor)
    ensures ed.text == "" && ed.entering && !ed.closed && ed.quit == quit
  {
    Editor("", true, quit, false)
  }

  /** One event. Return closes the box; Escape closes it and clears the quit
      flag; a window close shuts pygame down and sets the quit flag, but the
      rest of the batch is still handled;
      Backspace drops the last character (nothing on empty text); any other
      key appends its text. */
  function Handle(ed: Editor, ev: NameEvent): (r: Editor)
    ensures ev == Press(Backspace) ==>
      r.entering == ed.entering && r.quit == ed.quit
      && (|ed.text| == 0 ==> r.text == "")
      && (|ed.text| > 0 ==> r.text + [ed.text[|ed.text| - 1]] == ed.text)
    ensures ev.Press? && ev.key.Typed? ==> r == ed.(text := ed.text + ev.key.text)
    ensures ev == Press(Enter) ==> r == ed.(entering := false)
    ensures ev == Press(Esc) ==> r == ed.(entering := false, quit := false)
    ensures ev == Close ==> r == ed.(quit := true, closed := true)
    ensures ed.closed ==> r.closed
    ensures ev == Ignored ==> r == ed
    ensures !ed.entering ==> !r.entering
  {
    match ev
    case Close => ed.(quit := true, closed := true)
    case Ignored => ed
    case Press(key) =>
      match key
      case Enter => ed.(entering := false)
      case Esc => ed.(entering := false, quit := false)
      case Backspace => ed.(text := if |ed.text| == 0 then ed.text else ed.text[..|ed.text| - 1])
      case Typed(u) => ed.(text := ed.text + u)
  }

  /** Backspace undoes typing one character. */
  lemma BackspaceUndoesTyping(ed: Editor, c: char)
    ensures Handle(Handle(ed, Press(Typed([c]))), Press(Backspace)) == ed
  {
    assert (ed.text + [c])[..|ed.text|] == ed.text;
  }

  /** One batch of events. Every event of the batch is handled, even those
      after a Return: ending the box only takes effect between batches.
      The box stays open exactly when it was open and the batch holds neither
      Return nor Escape; pygame is shut down exactly when it was or the batch
      holds a window close; the quit flag changes only through a close or an
      Escape, and when only one of the two occurs it decides the flag. */
  function Batch(ed: Editor, evs: seq<NameEvent>): (r: Editor)
    ensures r.entering <==> ed.entering && Press(Enter) !in evs && Press(Esc) !in evs
    ensures r.closed <==> ed.closed || Close in evs
    ensures Close !in evs && Press(Esc) !in evs ==> r.quit == ed.quit
    ensures Close in evs && Press(Esc) !in evs ==> r.quit
    ensures Press(Esc) in evs && Close !in evs ==> !r.quit
    decreases |evs|
  {
    if |evs| == 0 then ed
    else
      assert evs == [evs[0]] + evs[1..];
      Batch(Handle(ed, evs[0]), evs[1..])
  }

  /** A batch of one event is that event's `Handle`. */
  lemma BatchOne(ed: Editor, ev: NameEvent)
    ensures Batch(ed, [ev]) == Handle(ed, ev)
  {
    assert [ev][1..] == [];
  }

  /** The whole session: batches are polled until one leaves the box closed
      or pygame shut down. After a window close the next drawing call fails,
      so the batch that held the close is the last one. */
  function Session(ed: Editor, batches: seq<seq<NameEvent>>): (r: Editor)
    ensures !ed.entering || ed.closed ==> r == ed
    ensures ed.entering && !ed.closed && r.entering && !r.closed ==> r == Batch(ed, Flatten(batches))
    decreases |batches|
  {
    if |batches| == 0 || !ed.entering || ed.closed then ed
    else
      var b := Batch(ed, batches[0]);
      assert batches == [batches[0]] + batches[1..];
      BatchSplit(ed, batches[0], Flatten(batches[1..]));
      Session(b, batches[1..])
  }

  /** The batches one after the other. */
  function Flatten(batches: seq<seq<NameEvent>>): seq<NameEvent>
    decreases |batches|
  {
    if |batches| == 0 then [] else batches[0] + Flatten(batches[1..])
  }

  /** Whether the box still polls: open, and pygame not shut down. */
  predicate Polling(ed: Editor) {
    ed.entering && !ed.closed
  }

  /** How many batches a session polls before it stops. */
  function Polled(ed: Editor, batches: seq<seq<NameEvent>>): (k: nat)
    ensures k <= |batches|
    decreases |batches|
  {
    if |batches| == 0 || !Polling(ed) then 0 else 1 + Polled(Batch(ed, batches[0]), batches[1..])
  }

  /** Handling the first `j` batches is handling the first batch and then
      the `j - 1` after it. */
  lemma PrefixSplit(ed: Editor, batches: seq<seq<NameEvent>>, j: nat)
    requires 0 < j <= |batches|
    ensures Batch(ed, Flatten(batches[..j])) == Batch(Batch(ed, batches[0]), Flatten(batches[1..][..j - 1]))
  {
    var p := batches[..j];
    assert p[0] == batches[0];
    assert p[1..] == batches[1..][..j - 1];
    BatchSplit(ed, batches[0], Flatten(batches[1..][..j - 1]));
  }

  /** A session stops at the first batch that ends the box or shuts pygame
      down, and its result is the polled batches handled in order as one
      batch: with `k` batches polled, the box was still polling after each
      of the first `k - 1`, and if any batch is left unpolled the box had
      stopped polling. */
  lemma {:induction false} SessionPolls(ed: Editor, batches: seq<seq<NameEvent>>)
    ensures Session(ed, batches) == Batch(ed, Flatten(batches[..Polled(ed, batches)]))
    ensures Polled(ed, batches) < |batches| ==> !Polling(Session(ed, batches))
    ensures forall j :: 0 <= j < Polled(ed, batches) ==> Polling(Batch(ed, Flatten(batches[..j])))
    decreases |batches|
  {
    if |batches| == 0 || !Polling(ed) {
      assert batches[..0] == [];
    } else {
      var b, rest := Batch(ed, batches[0]), batches[1..];
      SessionPolls(b, rest);
      var k := Polled(ed, batches);
      PrefixSplit(ed, batches, k);
      forall j | 0 <= j < k
        ensures Polling(Batch(ed, Flatten(batches[..j])))
      {
        if j == 0 {
          assert batches[..0] == [];
        } else {
          PrefixSplit(ed, batches, j);
        }
      }
    }
  }

  /** The key presses that type `name` one character at a time. */
  function TypeAll(name: string): (evs: seq<NameEvent>)
    ensures |evs| == |name|
    ensures forall i :: 0 <= i < |name| ==> evs[i] == Press(Typed([name[i]]))
  {
    if |name| == 0 then [] else [Press(Typed([name[0]]))] + TypeAll(name[1..])
  }

  /** Typing a name into a box that already holds `prefix` appends it. */
  lemma {:induction false} TypingAppends(prefix: string, name: string, quit: bool)
    ensures Batch(Editor(prefix, true, quit, false), TypeAll(name)) == Editor(prefix + name, true, quit, false)
    decreases |name|
  {
    if |name| > 0 {
      var ed := Editor(prefix, true, quit, false);
      var ev := Press(Typed([name[0]]));
      TypeAllCons(name);
      BatchSplit(ed, [ev], TypeAll(name[1..]));
      BatchOne(ed, ev);
      TypingAppends(prefix + [name[0]], name[1..], quit);
      AppendFirst(prefix, name);
    }
  }

  lemma TypeAllCons(name: string)
    requires |name| > 0
    ensures TypeAll(name) == [Press(Typed([name[0]]))] + TypeAll(name[1..])
  {
  }

  lemma AppendFirst(prefix: string, name: string)
    requires |name| > 0
    ensures prefix + [name[0]] + name[1..] == prefix + name
  {
    assert name == [name[0]] + name[1..];
  }

  /** Typing a name and pressing Return, in one batch, enters exactly that
      name and ends the session. */
  lemma TypedNameRoundTrip(name: string, quit: bool)
    ensures Session(Start(quit), [TypeAll(name) + [Press(Enter)]]) == Editor(name, false, quit, false)
  {
    TypingAppends("", name, quit);
    BatchSplit(Start(quit), TypeAll(name), [Press(Enter)]);
    assert "" + name == name;
  }

  lemma {:induction false} BatchSplit(ed: Editor, a: seq<NameEvent>, b: seq<NameEvent>)
    ensures Batch(ed, a + b) == Batch(Batch(ed, a), b)
    decreases |a|
  {
    if |a| > 0 {
      assert (a + b)[1..] == a[1..] + b;
      BatchSplit(Handle(ed, a[0]), a[1..], b);
    } else {
      assert a + b == b;
    }
  }

  /** Keys pressed after Return in the same batch still edit the name. */
  lemma KeysAfterReturnStillCount()
    ensures Batch(Start(false), [Press(Enter), Press(Typed("a"))]) == Editor("a", false, false, false)
  {
  }

  /** `input_name`'s answer: whether a name was entered, i.e. the text is
      neither empty nor a single newline. */
  function Named(text: string): (b: bool)
    ensures !b <==> text == "" || text == "\n"
  {
    !(text == "" || text == "\n")
  }

  /** Typing any name other than "" and "\n" and pressing Return enters it:
      the session ends with that text, which counts as named, and nobody
      closed the window. Typing nothing and pressing Return does not. */
  lemma TypedNameIsNamed(name: string, quit: bool)
    ensures var ed := Session(Start(quit), [TypeAll(name) + [Press(Enter)]]);
            ed.text == name && !ed.closed && (Named(ed.text) <==> name != "" && name != "\n")
  {
    TypedNameRoundTrip(name, quit);
  }
}

=== FILE: players.dfy ===
/** The player's aircraft: per-frame movement with diagonal slow-down, clamping
    to the screen, a cosmetic tilt angle, the defend countdown and the two
    time-gated abilities (flash and defend). Wall-clock time is a parameter. */
module Players {
  import opened Geometry

  /** Pixels per frame along one axis. */
  const PlayerSpeed: int := 10
  /** int(PlayerSpeed / sqrt 2): 7.07 truncated (see `Speed`). */
  const DiagonalSpeed: int := 7
  /** Largest tilt, in degrees, and the tilt step per frame. */
  const MaxRot: int := 15
  const FrameRot: int := 1
  /** Flash multiplies the per-frame speed by this many frames' worth. */
  const FlashBoost: int := 20
  /** Seconds between two flashes and between two defends. */
  const FlashCoolDown: real := 5.0
  const DefendCoolDown: real := 5.0
  /** Frames of invulnerability a defend grants. */
  const DefendFrames: int := 5

  /** The four arrow keys held at the start of a frame. */
  datatype Keys = Keys(up: bool, down: bool, left: bool, right: bool)

  datatype Vec = Vec(dx: int, dy: int)

  datatype Player = Player(
    rect: Rect,
    rot: int,          // +1 up, -1 down, 0 neither/both, this frame
    angle: int,        // current tilt in degrees
    direction: Vec,    // this frame's key direction, screen axes (y grows down)
    defending: int,    // frames of invulnerability left
    flashTime: real,   // wall-clock second of the last flash
    defendTime: real)  // wall-clock second of the last defend

  /** 1 for a held key, 0 otherwise. */
  function Held(b: bool): int { if b then 1 else 0 }

  function Sign(a: int): int { if a > 0 then 1 else if a < 0 then -1 else 0 }

  function Abs(a: int): nat { if a < 0 then -a else a }

  /** A freshly constructed player of the plane image's size `w` x `h`, centred
      at (-100, ScreenHeight / 2), level, still, and with both abilities ready
      at any time at least five seconds after the epoch. */
  function NewPlayer(w: nat, h: nat): (p: Player)
    ensures p.rect.x + w / 2 == -100 && p.rect.y + h / 2 == ScreenHeight / 2
    ensures p.rect.w == w && p.rect.h == h
    ensures p.angle == 0 && p.rot == 0 && p.direction == Vec(0, 0) && p.defending == 0
    ensures p.flashTime == 0.0 && p.defendTime == 0.0
  {
    Player(Rect(-100 - w / 2, ScreenHeight / 2 - h / 2, w, h), 0, 0, Vec(0, 0), 0, 0.0, 0.0)
  }

  /** The per-axis step of a frame: diagonal whenever a vertical and a
      horizontal key are both held, even if opposite keys cancel. The
      diagonal step is the straight one divided by sqrt 2 and truncated: the
      largest whole step whose two-axis displacement is no longer than a
      straight step. */
  function Speed(k: Keys): (s: int)
    ensures s == DiagonalSpeed <==> (k.up || k.down) && (k.left || k.right)
    ensures s == PlayerSpeed <==> !((k.up || k.down) && (k.left || k.right))
    ensures s == DiagonalSpeed ==>
      0 <= s && 2 * s * s <= PlayerSpeed * PlayerSpeed < 2 * (s + 1) * (s + 1)
  {
    if (k.up || k.down) && (k.left || k.right) then DiagonalSpeed else PlayerSpeed
  }

  /** The first half of `update`: count the defend counter down, then apply the
      four keys one after the other, each moving the rectangle by one step and
      accumulating `rot` and `direction`. */
  function Steer(p: Player, k: Keys): (q: Player)
    ensures q.direction == Vec(Held(k.right) - Held(k.left), Held(k.down) - Held(k.up))
    ensures q.rot == Held(k.up) - Held(k.down)
    ensures q.rect == p.rect.Move(Speed(k) * q.direction.dx, Speed(k) * q.direction.dy)
    ensures p.defending > 0 ==> q.defending == p.defending - 1
    ensures p.defending == 0 ==> q.defending == 0
    ensures q.angle == p.angle && q.flashTime == p.flashTime && q.defendTime == p.defendTime
  {
    var s := Speed(k);
    var d := if p.defending != 0 then p.defending - 1 else p.defending;
    var q0 := p.(defending := d, rot := 0, direction := Vec(0, 0));
    var q1 := if k.up then q0.(rot := q0.rot + FrameRot, rect := q0.rect.Move(0, -s),
                               direction := q0.direction.(dy := q0.direction.dy - 1)) else q0;
    var q2 := if k.down then q1.(rot := q1.rot - FrameRot, rect := q1.rect.Move(0, s),
                                 direction := q1.direction.(dy := q1.direction.dy + 1)) else q1;
    var q3 := if k.left then q2.(rect := q2.rect.Move(-s, 0),
                                 direction := q2.direction.(dx := q2.direction.dx - 1)) else q2;
    var q4 := if k.right then q3.(rect := q3.rect.Move(s, 0),
                                  direction := q3.direction.(dx := q3.direction.dx + 1)) else q3;
    q4
  }

  /** Keep the player on the screen: left edge, then right edge, then top,
      then bottom. When the rectangle is wider than the screen the right-edge
      correction wins and the left edge ends up off screen. */
  function Clamp(r: Rect): (c: Rect)
    ensures c.w == r.w && c.h == r.h
    ensures r.FitsScreen() ==> c.OnScreen()
    ensures r.w <= ScreenWidth ==> c.x == (if r.x < 0 then 0 else if r.Right() > ScreenWidth then ScreenWidth - r.w else r.x)
    ensures r.h <= ScreenHeight ==> c.y == (if r.y < 0 then 0 else if r.Bottom() > ScreenHeight then ScreenHeight - r.h else r.y)
    ensures r.OnScreen() ==> c == r
    ensures r.w > ScreenWidth ==> c.Right() == ScreenWidth && c.Left() < 0
  {
    var a := if r.Left() < 0 then r.(x := 0) else r;
    var b := if a.Right() > ScreenWidth then a.(x := ScreenWidth - a.w) else a;
    var c := if b.Top() < 0 then b.(y := 0) else b;
    var d := if c.Bottom() > ScreenHeight then c.(y := ScreenHeight - c.h) else c;
    d
  }

  /** Clamping twice is clamping once. */
  lemma ClampIdempotent(r: Rect)
    ensures Clamp(Clamp(r)) == Clamp(r)
  {
  }

  /** The tilt step for this frame's `rot`: while a vertical key is held and
      the tilt is short of the maximum, move towards `rot` by 1 if already
      leaning that way, by 3 otherwise (also from level); at the maximum hold
      still, whichever key is held. With no vertical key, level out by 2. */
  function Tilt(angle: int, rot: int): (a: int)
    ensures rot != 0 && Abs(angle) < MaxRot ==>
      a == angle + (if Sign(angle) == rot then rot else 3 * rot)
    ensures rot != 0 && Abs(angle) >= MaxRot ==> a == angle
    ensures rot == 0 ==> Abs(a) == (if Abs(angle) >= 2 then Abs(angle) - 2 else 0)
    ensures rot == 0 && a != 0 ==> Sign(a) == Sign(angle)
    ensures -1 <= rot <= 1 && Abs(angle) <= MaxRot ==> Abs(a) <= MaxRot
  {
    if rot != 0 then
      if Abs(angle) < MaxRot then
        var factor := if Sign(angle) == rot then 1 else 3;
        angle + factor * rot
      else angle
    else if angle != 0 then
      var level := Abs(angle) - 2;
      var level := if level < 0 then 0 else level;
      Sign(angle) * level
    else angle
  }

  /** `Player.update(pressed_keys)`. */
  function Update(p: Player, k: Keys): (q: Player)
    ensures p.rect.FitsScreen() ==> q.rect.OnScreen()
    ensures q.rect.w == p.rect.w && q.rect.h == p.rect.h
    ensures q.rect == Clamp(p.rect.Move(Speed(k) * q.direction.dx, Speed(k) * q.direction.dy))
    ensures q.direction == Vec(Held(k.right) - Held(k.left), Held(k.down) - Held(k.up))
    ensures -1 <= q.direction.dx <= 1 && -1 <= q.direction.dy <= 1
    ensures q.rot == Held(k.up) - Held(k.down)
    ensures p.defending > 0 ==> q.defending == p.defending - 1
    ensures p.defending == 0 ==> q.defending == 0
    ensures q.angle == Tilt(p.angle, q.rot)
    ensures Abs(p.angle) <= MaxRot ==> Abs(q.angle) <= MaxRot
    ensures q.flashTime == p.flashTime && q.defendTime == p.defendTime
  {
    var s := Steer(p, k);
    s.(rect := Clamp(s.rect), angle := Tilt(s.angle, s.rot))
  }

  /** The player after one `Update` per element of `ks`, in order. */
  function Run(p: Player, ks: seq<Keys>): Player
    decreases |ks|
  {
    if |ks| == 0 then p else Run(Update(p, ks[0]), ks[1..])
  }

  /** Whatever keys are held, a tilt that starts within [-15, 15] (a new
      player starts level) never leaves it. */
  lemma {:induction false} TiltStaysBounded(p: Player, ks: seq<Keys>)
    requires Abs(p.angle) <= MaxRot
    ensures Abs(Run(p, ks).angle) <= MaxRot
    decreases |ks|
  {
    if |ks| > 0 {
      TiltStaysBounded(Update(p, ks[0]), ks[1..]);
    }
  }

  /** A player that fits the screen is on it after any non-empty run of frames
      and stays the same size. */
  lemma {:induction false} RunStaysOnScreen(p: Player, ks: seq<Keys>)
    requires p.rect.FitsScreen() && |ks| > 0
    ensures Run(p, ks).rect.OnScreen()
    ensures Run(p, ks).rect.w == p.rect.w && Run(p, ks).rect.h == p.rect.h
    decreases |ks|
  {
    var q := Update(p, ks[0]);
    if |ks| > 1 {
      RunStaysOnScreen(q, ks[1..]);
    }
  }

  /** Holding the opposite vertical key at full tilt changes nothing about
      the angle. */
  lemma FullTiltIgnoresOppositeKey(p: Player, k: Keys)
    requires p.angle == MaxRot && k.down && !k.up
    ensures Update(p, k).angle == MaxRot
  {
  }

  /** `defend_cooldown_remaining`: seconds until defend is ready again, never
      negative. */
  function DefendCoolDownRemaining(p: Player, now: real): (r: real)
    ensures r >= 0.0
    ensures r == 0.0 <==> now - p.defendTime >= DefendCoolDown
    ensures r > 0.0 ==> r == DefendCoolDown - (now - p.defendTime)
    ensures now >= p.defendTime ==> r <= DefendCoolDown
  {
    var remaining := 5.0 + p.defendTime - now;
    if remaining < 0.0 then 0.0 else remaining
  }

  /** `defend()`: refused (nothing changes) while the cool-down runs;
      otherwise stamps the time and grants five frames of invulnerability.
      The first component tells whether it activated. */
  function Defend(p: Player, now: real): (r: (bool, Player))
    ensures !r.0 <==> now - p.defendTime < DefendCoolDown
    ensures !r.0 ==> r.1 == p
    ensures r.0 ==> r.1 == p.(defendTime := now, defending := DefendFrames)
  {
    if DefendCoolDownRemaining(p, now) != 0.0 then (false, p)
    else (true, p.(defendTime := now, defending := 5))
  }

  /** After a successful defend the counter is 5 - n after n updates and 0
      from the fifth on. The collision check of a frame runs after that
      frame's update, so only four frames are protected (see
      `GameLoop.DefendCovers`). */
  lemma {:induction false} DefendLastsFiveFrames(p: Player, now: real, ks: seq<Keys>)
    requires Defend(p, now).0
    ensures |ks| < DefendFrames ==> Run(Defend(p, now).1, ks).defending == DefendFrames - |ks|
    ensures |ks| >= DefendFrames ==> Run(Defend(p, now).1, ks).defending == 0
  {
    CountDown(Defend(p, now).1, ks);
  }

  lemma {:induction false} CountDown(p: Player, ks: seq<Keys>)
    requires p.defending >= 0
    ensures Run(p, ks).defending == (if |ks| < p.defending then p.defending - |ks| else 0)
    decreases |ks|
  {
    if |ks| > 0 {
      CountDown(Update(p, ks[0]), ks[1..]);
    }
  }

  /** The displacement a flash applies for a (non-zero) direction: twenty
      frames' worth of the step, with the diagonal step when both components
      are non-zero. */
  function FlashStep(d: Vec): int
  {
    if d.dx != 0 && d.dy != 0 then DiagonalSpeed * FlashBoost else PlayerSpeed * FlashBoost
  }

  /** `flash()`: refused (nothing changes) within five seconds of the last
      flash; otherwise stamps the time, turns a still direction into
      "rightwards", and teleports by the direction times the flash step. The
      result is not clamped. */
  function Flash(p: Player, now: real): (r: (bool, Player))
    ensures !r.0 <==> now - p.flashTime < FlashCoolDown
    ensures !r.0 ==> r.1 == p
    ensures r.0 ==> r.1.flashTime == now
    ensures r.0 ==> r.1.direction == (if p.direction == Vec(0, 0) then Vec(1, 0) else p.direction)
    ensures r.0 ==> r.1.rect == p.rect.Move(r.1.direction.dx * FlashStep(r.1.direction),
                                             r.1.direction.dy * FlashStep(r.1.direction))
    ensures r.0 ==> r.1.(rect := p.rect, flashTime := p.flashTime, direction := p.direction) == p
  {
    if now - p.flashTime < 5.0 then (false, p)
    else
      var q := p.(flashTime := now);
      var speed := PlayerSpeed;
      var q := if q.direction == Vec(0, 0) then q.(direction := Vec(1, 0)) else q;
      var speed := if p.direction != Vec(0, 0) && q.direction.dx != 0 && q.direction.dy != 0
                   then DiagonalSpeed else speed;
      var dx := q.direction.dx * speed * FlashBoost;
      var dy := q.direction.dy * speed * FlashBoost;
      (true, q.(rect := q.rect.Move(dx, dy)))
  }

  /** After any update, a flash moves the player 200 pixels along one axis, or
      140 along both (so about 198 pixels diagonally). */
  lemma FlashDistance(p: Player, k: Keys, now: real)
    requires Flash(Update(p, k), now).0
    ensures var d := Flash(Update(p, k), now).1.rect;
            var r := Update(p, k).rect;
            (Abs(d.x - r.x) == 200 && d.y == r.y) || (d.x == r.x && Abs(d.y - r.y) == 200)
            || (Abs(d.x - r.x) == 140 && Abs(d.y - r.y) == 140)
  {
  }

  /** A second flash within five seconds of a successful one is refused and
      changes nothing; one five or more seconds later succeeds. */
  lemma FlashCoolsDown(p: Player, t: real, t': real)
    requires Flash(p, t).0
    ensures t' < t + FlashCoolDown ==> Flash(Flash(p, t).1, t') == (false, Flash(p, t).1)
    ensures t' >= t + FlashCoolDown ==> Flash(Flash(p, t).1, t').0
  {
  }

  /** A flash is not clamped: a player resting against the right edge of the
      screen and flying right is carried 200 pixels past it. */
  lemma FlashLeavesScreen()
    ensures var p := Player(Rect(700, 300, 100, 50), 0, 0, Vec(1, 0), 0, 0.0, 0.0);
            var q := Flash(p, 10.0).1;
            p.rect.OnScreen() && Flash(p, 10.0).0 && q.rect.Right() == ScreenWidth + 200
            && !q.rect.OnScreen()
  {
  }
}

=== FILE: sprites.dfy ===
/** What the game uses of pygame's sprite groups: a group is a sequence in
    insertion order; `Group.update()` runs every member's update, and a member
    that calls `kill()` leaves the group; `spritecollideany` returns the first
    member whose rectangle collides with a given one. */
module Sprites {
  import opened Geometry

  datatype Option<+T> = None | Some(value: T)

  /** How many members of `xs` kill themselves during one `step`. */
  function Deaths<T>(xs: seq<T>, step: T -> Option<T>): (n: nat)
    ensures n <= |xs|
    decreases |xs|
  {
    if |xs| == 0 then 0
    else (if step(xs[0]).None? then 1 else 0) + Deaths(xs[1..], step)
  }

  /** The in-order filter-map of the steps: each member in turn contributes
      its update, or nothing if it killed itself. */
  function FilterMap<T>(xs: seq<T>, step: T -> Option<T>): seq<T>
    decreases |xs|
  {
    if |xs| == 0 then []
    else (if step(xs[0]).Some? then [step(xs[0]).value] else []) + FilterMap(xs[1..], step)
  }

  lemma {:induction false} FilterMapFacts<T>(xs: seq<T>, step: T -> Option<T>)
    ensures |FilterMap(xs, step)| == |xs| - Deaths(xs, step)
    ensures forall y :: y in FilterMap(xs, step) ==> exists x :: x in xs && step(x) == Some(y)
    ensures forall i :: 0 <= i < |xs| && step(xs[i]).Some? ==> step(xs[i]).value in FilterMap(xs, step)
    decreases |xs|
  {
    if |xs| > 0 {
      FilterMapFacts(xs[1..], step);
      assert forall i :: 1 <= i < |xs| ==> xs[i] == xs[1..][i - 1];
    }
  }

  /** `Group.update()`: the members left after every member of `xs` made one
      `step`; a step that answers `None` is a member that killed itself. */
  function Survivors<T>(xs: seq<T>, step: T -> Option<T>): (r: seq<T>)
    ensures |r| == |xs| - Deaths(xs, step)
    ensures forall y :: y in r ==> exists x :: x in xs && step(x) == Some(y)
    ensures forall i :: 0 <= i < |xs| && step(xs[i]).Some? ==> step(xs[i]).value in r
    ensures (forall x :: x in xs ==> step(x).Some?) ==> |r| == |xs|
    ensures (forall x :: x in xs ==> step(x).None?) ==> r == []
  {
    FilterMapFacts(xs, step);
    AllLive(xs, step);
    FilterMap(xs, step)
  }

  lemma {:induction false} AllLive<T>(xs: seq<T>, step: T -> Option<T>)
    ensures (forall x :: x in xs ==> step(x).Some?) ==> Deaths(xs, step) == 0
    ensures (forall x :: x in xs ==> step(x).None?) ==> FilterMap(xs, step) == []
    decreases |xs|
  {
    if |xs| > 0 {
      AllLive(xs[1..], step);
      assert forall x :: x in xs[1..] ==> x in xs;
    }
  }

  /** A group of one member keeps its update unless the member dies. */
  lemma SurvivorsSingle<T>(x: T, step: T -> Option<T>)
    ensures Survivors([x], step) == if step(x).Some? then [step(x).value] else []
  {
    assert [x][1..] == [];
  }

  lemma FilterMapCons<T>(x: T, xs: seq<T>, step: T -> Option<T>)
    ensures FilterMap([x] + xs, step) == FilterMap([x], step) + FilterMap(xs, step)
  {
    assert ([x] + xs)[1..] == xs;
    assert [x][1..] == [];
  }

  lemma {:induction false} FilterMapAppend<T>(xs: seq<T>, ys: seq<T>, step: T -> Option<T>)
    ensures FilterMap(xs + ys, step) == FilterMap(xs, step) + FilterMap(ys, step)
    decreases |xs|
  {
    if |xs| == 0 {
      assert xs + ys == ys;
    } else {
      var x, rest := xs[0], xs[1..];
      assert xs == [x] + rest;
      assert xs + ys == [x] + (rest + ys);
      FilterMapCons(x, rest + ys, step);
      FilterMapCons(x, rest, step);
      FilterMapAppend(rest, ys, step);
    }
  }

  /** Updating a group is updating its two halves, in order: the survivors
      keep the group's order, and each member contributes exactly its own
      update. With `SurvivorsSingle` this pins the result down member by
      member. */
  lemma SurvivorsAppend<T>(xs: seq<T>, ys: seq<T>, step: T -> Option<T>)
    ensures Survivors(xs + ys, step) == Survivors(xs, step) + Survivors(ys, step)
  {
    FilterMapAppend(xs, ys, step);
  }

  /** `spritecollideany`: the position of the first member of the group whose
      rectangle collides with `target`, if any. */
  function FirstHit<T>(xs: seq<T>, rectOf: T -> Rect, target: Rect): (r: Option<nat>)
    ensures r.Some? ==> r.value < |xs| && Collide(target, rectOf(xs[r.value]))
    ensures r.Some? ==> forall j :: 0 <= j < r.value ==> !Collide(target, rectOf(xs[j]))
    ensures r.None? <==> forall j :: 0 <= j < |xs| ==> !Collide(target, rectOf(xs[j]))
  {
    if |xs| == 0 then None
    else if Collide(target, rectOf(xs[0])) then Some(0)
    else
      match FirstHit(xs[1..], rectOf, target)
      case None => None
      case Some(i) => Some(i + 1)
  }

  /** `Sprite.kill()` of the member at position `i`: the group without it. */
  function RemoveAt<T>(xs: seq<T>, i: nat): (r: seq<T>)
    requires i < |xs|
    ensures |r| == |xs| - 1
    ensures r[..i] == xs[..i] && r[i..] == xs[i + 1..]
    ensures multiset(r) + multiset{xs[i]} == multiset(xs)
  {
    assert xs == xs[..i] + [xs[i]] + xs[i + 1..];
    xs[..i] + xs[i + 1..]
  }
}
